=== FILE: README.md ===
# supabase-config-checker: the audit pass, modelled in Dafny

supabase-config-checker audits one Supabase project on request. The
`POST /run-system-checks/:projectRef` handler does the following:

- It resolves the credentials in `getClient`. A stored project record wins, and its access key is decrypted. If there is no record but a key is supplied, a record is created with that key encrypted. If there is neither, the request is refused.
- It exchanges the management access key for the project's role key. This is the element at index 1 of the project's API-key list.
- It runs three checks, in this order:
  - `listMfa`: users without an MFA factor.
  - `getDatabasePITRStatus`: whether point-in-time recovery is on.
  - `getRLS`: tables without row-level security. Each such table is "remediated" by sending `alter table … enable row level security;`.
- Each check appends one log row.
- It returns a report with the three results and their resolution texts and links.

`helpers/helper.js` stores access keys as tokens of the form
`saltHex:ivHex:cipherHex`.

The model is a set of pure functions:

| file | module | models |
|---|---|---|
| `results.dfy` | `Results` | `Option` and `Result` |
| `utf16.dfy` | `Utf16` | a JavaScript string as the sequence of its UTF-16 code units |
| `hex.dfy` | `Hex` | Node's `Buffer` hex codec: lowercase output; decoding reads code units in pairs, each by its low byte, and stops at the first pair that is not two hex digits |
| `fields.dfy` | `Fields` | JavaScript `split`/`join` on one separator character |
| `helper.dfy` | `Helper` | `encrypt`/`decrypt`, with PBKDF2 and AES-256-CBC taken as function values |
| `seqs.dfy` | `Seqs` | `Filter`, `Map`, `Positions`, `IsSubsequence`: the reference definitions the checks are stated against |
| `checks.dfy` | `Checks` | `getClient`, `listMfa`, `getDatabasePITRStatus`, `getRLS` |
| `route.dfy` | `Route` | the handler and the properties of one whole pass |
| `first_pass.dfy` | `FirstPass` | the first pass for a new project (see Findings), later passes, and one worked pass |

Side effects are returned, not performed. An operation returns
`Step(result, events)`. The `events` trace lists the following:

- every row written: `CreateProject`, `AppendLog`;
- every management-API request that carries a bearer key: `FetchApiKeys`, `FetchBackups`, `RunQuery`.

This makes the key precedence and the remediation statements observable. All
remote answers are one input record, `Upstream`:

- `None` stands for a failed request (for the user listing, see Left out).
- A user missing from `factorCounts` is a factor lookup that failed.
- A statement in `rejected` is one the database refuses.

The database's project table is a sequence `store`. The random IV and the id
of a new row are parameters (`Env`). A thrown exception is an `Err` whose
`events` are the effects that already happened. Async/await is sequential
here, because the handler awaits each call in turn.

Where the code's behaviour differs from what one would expect of it, the model follows the code:

- **Salt.** A fresh salt per encryption would be expected. The code draws one per process, at module load (helpers/helper.js:5-6). `Helper.SaltFixedPerProcess` states the consequence.
- **Token fields.** A token of exactly three fields would be expected. `decrypt` needs at least two and re-joins the rest with `:` (helpers/helper.js:16-19). See `Helper.ParseRejoins`.
- **Ciphertext field.** The salt and IV fields are read leniently by `Buffer.from(_, 'hex')`. The ciphertext field goes to `decipher.update(_, 'hex', 'utf8')`, which refuses text whose JavaScript `length` is odd. That length counts UTF-16 code units, colons and non-hex characters included, so a character outside the basic plane counts twice (helpers/helper.js:19-22). Node's hex reader, used both by `Buffer.from` and by `decipher.update`, looks at each code unit's low byte only: U+0161 reads as the digit `a`, and the surrogate pair of U+1C031 reads as `01`. See `Helper.OddDigitRejected`, `Helper.AstralCharacterKept` and `Helper.AstralByteAdded`.
- **Tamper detection.** Rejecting a tampered token would be expected of a credential store. The code uses unauthenticated AES-256-CBC, so it cannot be promised (see Left out).
- **RLS requests.** The RLS check and its remediation go through the management API with the access key, not through the role-key client (routes/checks.js:122-131, 142-148).
- **First pass.** A first audit of a new project would be expected to succeed. The code as written fails it (see Findings).

## Model

| member | source | states |
|---|---|---|
| Hex.Encode | helpers/helper.js:12 | `toString('hex')` writes two hex digits per byte and never a colon |
| Utf16.CharUnits | helpers/helper.js:17-22 | a basic-plane character is one code unit, its own code; any other character is two (a surrogate pair) |
| Utf16.Units | helpers/helper.js:17-22 | a string has at least one and at most two code units per character |
| Utf16.UnitsAppend | helpers/helper.js:19-22 | the code units of a concatenation are those of the first part followed by those of the second |
| Utf16.UnitsOfBmp | helpers/helper.js:19-22 | a string of basic-plane characters has one code unit per character, each equal to the character's code |
| Hex.DecodeUnits | helpers/helper.js:17-18 | the hex reader consumes at most two code units per byte, and it stops before the end only at a pair one of whose units does not have a hex digit as its low byte |
| Hex.Decode | helpers/helper.js:17-18 | `Buffer.from(_, 'hex')` reads at most one byte per two UTF-16 code units of the text, and stops before the end only at a pair of units whose low bytes are not both hex digits |
| Hex.LowBytesRead | helpers/helper.js:17-22 | the reader goes by low bytes: "\u0161\u0161" reads as the byte 0xaa, and U+1C031 (units D830 DC31) as the byte 0x01 |
| Hex.EncodedUnits | helpers/helper.js:12 | the hex text of any bytes has one code unit per character |
| Hex.DecodeEncode | helpers/helper.js:17-18 | hex-decoding the lowercase encoding of any byte string gives the bytes back |
| Hex.EncodeInjective | helpers/helper.js:12 | two byte strings have the same hex text exactly when they are equal |
| Hex.DecodeEncodeThen | helpers/helper.js:17-22 | the code units of an encoding followed by any code units read as the encoded bytes followed by what those units read as on their own |
| Fields.Split | helpers/helper.js:16 | `split(':')` gives at least one field, and no field contains the separator |
| Fields.SplitCount | helpers/helper.js:16 | `split` gives exactly one field more than the text has separators |
| Fields.Join | helpers/helper.js:19 | `join(':')` of no fields is empty; otherwise the text begins with the first field, followed by the separator when there are more |
| Fields.JoinSplit | helpers/helper.js:16-19 | re-joining the fields of a split with the separator gives the original text |
| Fields.SplitJoin | helpers/helper.js:16-19 | splitting a join of separator-free fields (at least one) gives those fields back |
| Helper.DeriveKey | helpers/helper.js:20 | as for the load-time key of line 6, the key is PBKDF2 of the fixed password `your-strong-password` and the salt, with 100000 iterations, a 32-byte output and SHA-256: nothing but the salt varies it |
| Helper.FormatToken | helpers/helper.js:12 | the token splits on `:` into exactly the hex of salt, IV and ciphertext |
| Helper.ParseToken | helpers/helper.js:16-19 | a token is refused (malformed) exactly when it has fewer than two `:` fields |
| Helper.Encrypt | helpers/helper.js:7-13 | the token parses back into the process salt, the given IV and the ciphertext under the process key; its ciphertext field is exactly the hex of that ciphertext, so its `length` is even |
| Helper.Decrypt | helpers/helper.js:15-25 | a token with fewer than two fields is refused as malformed; it is refused for its IV exactly when it parses and the IV is not 16 bytes; it is refused for its ciphertext exactly when it parses, the IV is 16 bytes and the ciphertext field has an odd `length` in UTF-16 code units (colons and non-hex characters included); success needs all three to pass; every field is read by code units, as `Hex.Decode` does |
| Helper.ParseRejoins | helpers/helper.js:16-19 | after two colon-free fields, the whole remainder, colons included, is the ciphertext field |
| Helper.ParseFormat | helpers/helper.js:12-19 | parsing a formatted token recovers exactly the salt, IV and ciphertext written into it |
| Helper.OddDigitRejected | helpers/helper.js:19-22 | appending one basic-plane character other than a colon to a token `encrypt` produced makes `decrypt` refuse it for the odd `length` of its ciphertext field, although `Buffer.from` would have ignored the extra character |
| Helper.AstralCharacterKept | helpers/helper.js:16-22 | appending one character outside the basic plane keeps the salt and IV and the `length` even; the ciphertext read is the original followed by what the character's surrogate pair reads as; when the pair reads as nothing and the cipher round-trips, the token still decrypts to the original text |
| Helper.AstralByteAdded | helpers/helper.js:16-22 | appending U+1C031 is not refused for its length, and the ciphertext handed to the decipher gains the byte 0x01 |
| Helper.DecryptEncrypt | helpers/helper.js:5-25 | if the cipher round-trips, decrypting a token gives its plaintext back, also in a process whose salt differs from the encrypting one's |
| Helper.SaltFixedPerProcess | helpers/helper.js:5-12 | all tokens of one process begin with the same field, the hex of the process salt |
| Helper.IvIsOnlyFreshness | helpers/helper.js:8-12 | within one process, two encryptions of the same text give the same token exactly when their IVs are equal |
| Checks.FindProject | routes/checks.js:18-22 | the result is absent exactly when no stored row has the reference; otherwise it is the first such row |
| Checks.Resolve | routes/checks.js:23-32 | refused exactly when there is no record, no key and the reference is non-empty; a row is created exactly when there is no record, a key and a reference, and it holds that key encrypted; a stored record wins, and the pass succeeds exactly when its key decrypts |
| Checks.SelectRoleKey | routes/checks.js:38-39 | succeeds exactly when the list has at least two elements, and then gives the key of the second |
| Checks.GetClient | routes/checks.js:16-46 | writes no log; the key-list request carries the resolved key; succeeds exactly when resolution succeeds and the list has at least two elements; the client holds the key at index 1 |
| Checks.ScanFactors | routes/checks.js:55-63 | fails exactly when some factor lookup fails; otherwise reports, in order, the users without factors, and counts them |
| Checks.ListMfa | routes/checks.js:49-79 | succeeds exactly when the user list, every factor lookup and the record are there; then one MFA log row for the record, with the TOTP enrolment help, the "MFA Checks Run" log message and no message, whose failure count is the number reported and whose success count is the rest; writes nothing on failure |
| Checks.ListMfaReportsUnprotectedUsers | routes/checks.js:55-62 | a user is reported exactly when listed with zero factors; one report per such list position; in list order; every report says MFA is off |
| Checks.PitrCheck | routes/checks.js:82-117 | requests the backups with the bearer key first; succeeds exactly when the response and the record are there; reports enabled exactly when the flag is true; one log row for the record, with success 0 / failure 1 and the dashboard link as help when disabled, and success 1 / failure 0, no help and the "already enabled" message when enabled |
| Checks.ScanTables | routes/checks.js:135-150 | succeeds exactly when no needed remediation is refused; then one violation per table without RLS, in row order, and the j-th query sent is the j-th violation's statement; a failure is a refused SQL request; every step it records is a SQL request carrying the given reference and key, so it writes no log |
| Checks.ScanStopsAtFirstRefusal | routes/checks.js:142-148 | when a remediation is refused, the statements sent are those of the first violations in order, every one but the last was accepted, the last was refused, and its refusal is the scan's error |
| Checks.GetRls | routes/checks.js:120-167 | sends the introspection query first; succeeds exactly when the query answers, the record is there and every remediation is accepted; the violations are the tables without RLS; then the queries sent are the introspection plus the remediations, followed by one log row for the record with the "RLS Checks Run" log message that counts them, with the failure message and help exactly when there is a violation and the no-action texts otherwise; a failure after the introspection answered leaves exactly the introspection query and the scan's queries, and no log |
| Checks.RemediationPerViolation | routes/checks.js:135-149 | each table without RLS yields one violation and one remediation query, in row order; a table with RLS yields neither; each command is `alter table <name> enable row level security;` |
| Route.BodyKey | routes/checks.js:172 | the body's key counts exactly when it is present and non-empty |
| Route.Bearer | routes/checks.js:172-175 | the checks carry the body's key when it counts, and otherwise the key `getClient` returned |
| Route.Audit | routes/checks.js:176-192 | succeeds exactly when all three checks do; MFA resolution and link are present exactly when some user lacks MFA; PITR resolution and link are present exactly when PITR is off, and the link names the project; the report lists the unprotected users and the tables without RLS; the trace is the MFA, PITR and RLS traces in that order; every backups request and query carries the given reference and key |
| Route.AuditStopsAtFirstFailure | routes/checks.js:176-190 | a failed MFA check ends the audit with no effect at all; a failed PITR check ends it after the backups request, with no SQL; a failed RLS check ends it with no RLS log row |
| Route.RunSystemChecks | routes/checks.js:169-199 | a client that cannot be obtained ends the pass with its error and only its effects; a report is sent only when the client and all three checks succeed, and then lists the users without MFA, the PITR flag and the tables without RLS of the remote answers; every backups request and SQL statement names the project and carries the body's key when one was supplied, else the key `getClient` resolved |
| Route.AuditWritesThreeLogs | routes/checks.js:64-161 | a successful audit appends three log rows, MFA, PITR and RLS in that order, each counting the failures its report shows, all for the given record |
| Route.AuditLogsBelongToRecord | routes/checks.js:64-161 | a successful audit was given a record, and every log row it appends (lines 71, 97, 109, 159) carries that record's id |
| Route.PassTrace | routes/checks.js:169-194 | a successful pass had a client, answers with the audit's report, and its log rows and SQL statements are exactly those of the audit |
| Route.PassWritesThreeLogs | routes/checks.js:64-161 | a successful pass appends exactly three log rows for one project: MFA, PITR, RLS, in that order, each counting the failures its report shows |
| Route.PassLogsBelongToRecord | routes/checks.js:64-161 | every log row of a successful pass refers to the record `getClient` handed over |
| Route.AuditQueries | routes/checks.js:190 | the SQL of a successful audit is the introspection query followed by one remediation per reported violation, in order |
| Route.MfaPitrSendNoSql | routes/checks.js:49-117 | the MFA and PITR checks send no SQL, whatever the remote answers |
| Route.RlsQueries | routes/checks.js:122-150 | the SQL `getRLS` sends on success is the introspection query, then each violation's remediation statement in order |
| Route.PassQueries | routes/checks.js:122-148 | a successful pass sends the introspection query, then one remediation per reported violation in report order, and no other SQL |
| Route.PassKeyPrecedence | routes/checks.js:172-175 | in every pass that sends any request, completed or not, the key-list request uses the stored key when a record exists and the supplied one otherwise, while the backups request and every query use the supplied key whenever one was given |
| Route.ClientKey | routes/checks.js:32-41 | whenever `getClient` sends anything, there is a stored record whose key decrypts, or a supplied key; its one key-list request carries that key, and on success it hands that key on |
| Route.PassCreatesAtMostOnce | routes/checks.js:25-31 | a pass creates a row exactly when the reference is unknown, non-empty and a key is supplied; it creates exactly one, holding that key encrypted, however the rest of the pass ends |
| Route.ClientCreations | routes/checks.js:25-31 | `getClient` writes a record exactly when a key is supplied for an unknown, non-empty reference, and then exactly one, holding the key encrypted |
| Route.AuditCreatesNothing | routes/checks.js:176-190 | the three checks never create a project row |
| FirstPass.FindAppended | routes/checks.js:18-22 | a record appended for a previously unknown reference is the one later found |
| FirstPass.FirstPassFailsAsWritten | routes/checks.js:25-41 | as written, a first pass for an unknown reference with a supplied key never succeeds, whatever the remote services answer: it stores the encrypted key first, then writes no log row and sends no SQL; when the key list, the user listing and the factor lookups answer, it fails on the null record after the key-list request and before any further management-API request |
| FirstPass.AuditWithoutRecord | routes/checks.js:49-78 | without a record the audit fails in its first check, before any management-API request or log row, and with the null-record error once the user list and every factor lookup answered |
| FirstPass.AuditCompletes | routes/checks.js:176-190 | with a record and every remote call answering, all three checks complete |
| FirstPass.StoredPassSucceeds | routes/checks.js:169-194 | a pass for a stored record whose key decrypts sends the report whenever the key list has two entries and every check's remote call answers (the converse of `Route.RunSystemChecks`' second clause), under either variant |
| FirstPass.CorrectedClientCarriesRecord | routes/checks.js:25-41 | corrected, the client of a first pass carries the record just created |
| FirstPass.FirstPassSucceeds | routes/checks.js:169-194 | corrected, the first pass completes whenever the remote calls answer, with three log rows that all refer to the new record |
| FirstPass.VariantsAgreeOtherwise | routes/checks.js:23-32 | the correction changes no pass except the first for an unknown reference with a supplied key |
| FirstPass.LaterPassRecoversStoredKey | routes/checks.js:18-32 | after a first pass stores its record, any later pass, even in another process, finds the record and uses its decrypted key, whatever key that pass supplies |
| FirstPass.ScenarioSelections | routes/checks.js:55-62 | in the worked pass, only `u2` lacks MFA and only `orders` lacks RLS |
| FirstPass.ScenarioReportHolds | routes/checks.js:169-194 | the worked pass for `abc123` with key `sk_test`, corrected, answers with the expected report: `u2` without MFA with the MFA help and link, PITR off with the dashboard link for `abc123`, and `orders` without RLS with its `alter table` statement |
| FirstPass.ScenarioAsWritten | routes/checks.js:173-176 | the same pass as written stores the record, fetches the key list, and fails with no log row |

## Left out

- HTTP plumbing: Express routing, CORS, the status code and `next(e.message)`, and the server set-up files. The error is an `Error` value, not a message text. The texts of the thrown errors (`'Something went wrong!'`, the missing-key message) are not modelled.
- `console.log` calls: they have no observable effect on the model.
- Prisma and database failures: writes to the project and log tables always succeed. Row ids come from `Env.newId`.
- Concurrency: two concurrent first passes for the same reference could both create a row. Passes are modelled one at a time.
- AES-256-CBC, PBKDF2, UTF-8 and the random generator: they are the `Primitives` function values and the IV parameter. Only `CipherRoundTrips` is assumed of them.
- Helper.Decrypt: does not promise that a tampered token is rejected. CBC is unauthenticated, and `final()` may or may not throw on a forged padding, so the decipher result is left open.
- Utf16.Units: a character here is a Unicode scalar value, so a JavaScript string holding an unpaired surrogate cannot be written. Every other string has its code units, and so its `length`, modelled exactly.
- Helper.Decrypt: the key-length and digest arguments of PBKDF2 are passed through, not checked.
- The supabase-js client calls (`listUsers`, `listFactors`): they answer through `Upstream` and are not in the trace. They carry the role key, not the bearer key. The client itself is just its URL and role key.
- Checks.ListMfa: supabase-js reports a failed `listUsers` as an `error` field next to an empty user list rather than by throwing. Such a failure therefore reaches the model as `Some([])`, and the MFA check passes with zero users. `users == None` stands only for a listing whose response cannot be read.
- Route.BodyKey: the body's `accessKey` is taken to be a string. A truthy non-string JSON value is not modelled. `encrypt` would throw on it, and with a stored record it would be sent as the bearer text.
- Checks.PitrCheck: JavaScript truthiness of `pitr_enabled` is narrowed to a boolean. A missing, null or false flag means disabled. A truthy non-boolean value is not modelled.
- Checks.ListMfa: the factor list is reduced to its length, the only thing the code reads.
- Checks.GetRls: `relrowsecurity` is taken to be a boolean, as the catalogue column is. `relforcerowsecurity` is read but never used, and the model does the same.
- Checks.ScanTables: a refused remediation is modelled by its statement text. Two tables with the same name are therefore refused together.
- The frontend sends the access key in an `Authorization` header. The handler reads `req.body.accessKey`, so the frontend's key never reaches `getClient`. Only the handler's reading is modelled.

## Findings

| source | as written | input that shows it | evidently intended | confidence | as-written member | corrected member |
|---|---|---|---|---|---|---|
| routes/checks.js:25-41 | when a key is supplied for an unknown reference, `getClient` creates the project row but never assigns it to `projectData`, and returns `projectData` as `null`; `listMfa` then reads `projectData.id` (line 71) and throws | reference `abc123`, key `sk_test`, empty project table, and the management and auth APIs answering normally: the row is stored and the key list fetched, then the pass fails with no log row and no report | the created row is handed on as `projectData`, so the first pass completes and its log rows refer to the new project | high, not executed | FirstPass.FirstPassFailsAsWritten | FirstPass.FirstPassSucceeds |

`Variant` selects between the two readings. `AsWritten` is the code;
`Corrected` hands on the created row. `FirstPass.VariantsAgreeOtherwise`
shows that the correction changes no other pass.

=== FILE: checks.dfy ===
/**
  The audit procedures of routes/checks.js: credential resolution and role-key
  selection (`getClient`), the MFA check (`listMfa`), the point-in-time-recovery
  check (`getDatabasePITRStatus`) and the row-level-security check with its
  automatic remediation (`getRLS`).

  Every remote response is an input (`Upstream`); every effect and every
  request that carries a bearer key is an element of the returned trace.
 */
module Checks {
  import opened Results
  import opened Helper
  import opened Seqs

  // ---------------------------------------------------------------- data

  /** A stored `project` row: its `accessKey` holds an `encrypt` token. */
  datatype Project = Project(id: nat, projectRef: string, accessKey: string)

  /** One element of the management API's key list. */
  datatype ApiKey = ApiKey(name: string, apiKey: string)

  /** The backups response; `pitrEnabled` is `None` when the field is absent or null. */
  datatype BackupConfig = BackupConfig(pitrEnabled: Option<bool>)

  /** One row of the RLS introspection query. */
  datatype TableRow = TableRow(relname: string, relrowsecurity: bool, relforcerowsecurity: bool)

  /**
    The remote services' answers for one audit pass. A `None` response is a
    request that failed (or answered without the field the code reads); a user
    missing from `factorCounts` is a factor lookup that failed; a statement in
    `rejected` is a remediation query the database refuses.
   */
  datatype Upstream = Upstream(
    apiKeys: Option<seq<ApiKey>>,
    users: Option<seq<string>>,
    factorCounts: map<string, nat>,
    backups: Option<BackupConfig>,
    tables: Option<seq<TableRow>>,
    rejected: set<string>)

  /** The client `initializeSupabase` builds: the project URL and the role key. */
  datatype Client = Client(url: string, roleKey: string)

  /** A `log` row as `prisma.log.create` writes it. */
  datatype LogEntry = LogEntry(
    event: string,
    successCount: int,
    failureCount: int,
    suggestedHelp: Option<string>,
    logMessage: string,
    message: Option<string>,
    projectId: nat)

  /** One element of the trace: a persistent write, or a request sent with a bearer key. */
  datatype Event =
    | CreateProject(projectRef: string, accessKey: string)
    | FetchApiKeys(projectRef: string, bearer: string)
    | FetchBackups(projectRef: string, bearer: string)
    | RunQuery(projectRef: string, bearer: string, query: string)
    | AppendLog(entry: LogEntry)

  datatype Endpoint = ApiKeys | ListUsers | ListFactors(userId: string) | Backups | Query(sql: string)

  datatype Error =
    | MissingAccessKey          // no stored record and no key supplied
    | NullProjectData           // a property of the null `projectData` is read
    | Crypto(reason: CryptoError)
    | RequestFailed(endpoint: Endpoint)
    | NoRoleKey                 // the key list has no element at index 1

  /** What an operation returned or threw, and what it did before that. */
  datatype Step<T> = Step(result: Result<T, Error>, events: seq<Event>)

  /** Whether the record created on a first pass is handed on (see README, Findings). */
  datatype Variant = AsWritten | Corrected

  datatype Resolution = Resolution(projectData: Option<Project>, key: string)
  datatype Session = Session(client: Client, projectData: Option<Project>, key: string)

  datatype MfaStatus = MfaStatus(userId: string, mfaStatus: bool)
  datatype MfaScan = MfaScan(failedCount: nat, unprotected: seq<MfaStatus>)
  datatype RlsStatus = RlsStatus(tableName: string, rlsStatus: bool, resolution: string, command: string)

  // ----------------------------------------------------------- constants

  const MfaEvent := "User MFA Check"
  const MfaHelp := "Can enroll app users to MFA using a TOTP (Time based one time password) method"
  const MfaLogMessage := "MFA Checks Run"

  const PitrEvent := "Database Point in Time Recovery Check"
  const PitrLogMessage := "PITR Check Run"
  const PitrEnabledMessage := "PITR already enabled"
  const PitrHelpPrefix := "Can go to the project dashboard and enable PITR -> "

  const RlsEvent := "Table RLS Checks"
  const RlsLogMessage := "RLS Checks Run"
  const RlsResolution := "System has run the following command on your Supabase SQL Editor to enable RLS"
  const RlsHelpFailed := "Running the following command \"alter table 'table_name' enable row level security;\" for all missing tables"
  const RlsHelpNone := "No action needed"
  const RlsMessageFailed := "Please enable RLS checks and its policies"
  const RlsMessageNone := "Tables have RLS already enabled"

  const RlsIntrospectionQuery :=
    "select relname, relrowsecurity, relforcerowsecurity\n"
    + "                from pg_class\n"
    + "                join pg_catalog.pg_namespace n on n.oid = pg_class.relnamespace\n"
    + "                where n.nspname = 'public' and relkind = 'r';"

  /** The dashboard page for turning on point-in-time recovery of one project. */
  function PitrLink(projectRef: string): string {
    "https://supabase.com/dashboard/project/" + projectRef + "/database/backups/pitr"
  }

  /** The remediation statement for one table. */
  function EnableRlsCommand(relname: string): string {
    "alter table " + relname + " enable row level security;"
  }

  // ------------------------------------------------------ trace readers

  /** The log rows a trace appends, in order. */
  function Logs(events: seq<Event>): seq<LogEntry> {
    if |events| == 0 then []
    else (if events[0].AppendLog? then [events[0].entry] else []) + Logs(events[1..])
  }

  predicate IsCreation(e: Event) {
    e.CreateProject?
  }

  predicate IsQuery(e: Event) {
    e.RunQuery?
  }

  /** The project rows a trace creates, in order. */
  function Creations(events: seq<Event>): seq<Event> {
    Filter(events, IsCreation)
  }

  /** The SQL statements a trace sends, in order. */
  function Queries(events: seq<Event>): seq<string> {
    Map(QueryText, Filter(events, IsQuery))
  }

  function QueryText(e: Event): string {
    if e.RunQuery? then e.query else ""
  }

  lemma {:induction false} LogsNone(events: seq<Event>)
    requires forall i :: 0 <= i < |events| ==> !events[i].AppendLog?
    ensures Logs(events) == []
  {
    if |events| > 0 {
      assert forall i :: 1 <= i < |events| ==> events[1..][i - 1] == events[i];
      LogsNone(events[1..]);
    }
  }

  lemma {:induction false} LogsAppend(a: seq<Event>, b: seq<Event>)
    ensures Logs(a + b) == Logs(a) + Logs(b)
  {
    if |a| > 0 {
      var head := if a[0].AppendLog? then [a[0].entry] else [];
      assert (a + b)[0] == a[0];
      assert (a + b)[1..] == a[1..] + b;
      LogsAppend(a[1..], b);
      assert Logs(a + b) == head + (Logs(a[1..]) + Logs(b));
      assert Logs(a) == head + Logs(a[1..]);
    } else {
      assert a + b == b;
    }
  }

  // ------------------------------------------------ credential resolution

  /** JavaScript truthiness of the `accessKey` argument: present and not empty. */
  predicate Supplied(accessKey: Option<string>) {
    accessKey.Some? && accessKey.value != ""
  }

  /** `prisma.project.findFirst({where: {projectRef}})`: the first stored row for the reference. */
  function FindProject(store: seq<Project>, projectRef: string): (r: Option<Project>)
    ensures r.None? <==> forall i :: 0 <= i < |store| ==> store[i].projectRef != projectRef
    ensures r.Some? ==> exists i :: 0 <= i < |store| && store[i] == r.value
                          && r.value.projectRef == projectRef
                          && forall j :: 0 <= j < i ==> store[j].projectRef != projectRef
  {
    if |store| == 0 then None
    else if store[0].projectRef == projectRef then Some(store[0])
    else
      var r := FindProject(store[1..], projectRef);
      assert forall j :: 1 <= j < |store| ==> store[j] == store[1..][j - 1];
      r
  }

  /**
    The three-way decision at the head of `getClient`. `iv` is the random IV
    `encrypt` draws; `newId` is the id the database gives a created row.
   */
  function Resolve(variant: Variant, box: CryptoBox, iv: Block, store: seq<Project>,
                   projectRef: string, accessKey: Option<string>, newId: nat): (s: Step<Resolution>)
    // no record and no key: refused, nothing written
    ensures s.result == Err(MissingAccessKey)
            <==> FindProject(store, projectRef).None? && !Supplied(accessKey) && projectRef != ""
    ensures s.result == Err(MissingAccessKey) ==> s.events == []
    // a record is written exactly when a key is supplied for an unknown reference
    ensures s.events != [] <==> FindProject(store, projectRef).None? && Supplied(accessKey) && projectRef != ""
    ensures s.events != [] ==>
              && s.events == [CreateProject(projectRef, Encrypt(box, iv, accessKey.value))]
              && s.result.Ok? && s.result.value.key == accessKey.value
              && s.result.value.projectData
                 == if variant == Corrected then Some(Project(newId, projectRef, Encrypt(box, iv, accessKey.value))) else None
    ensures s.result.Ok? ==> FindProject(store, projectRef).Some? || (Supplied(accessKey) && projectRef != "")
    // a stored record wins: its decrypted key is used, whatever was supplied
    ensures FindProject(store, projectRef).Some? ==>
              && s.events == []
              && (s.result.Ok? <==> Decrypt(box, FindProject(store, projectRef).value.accessKey).Ok?)
              && (s.result.Ok? ==>
                    s.result.value == Resolution(FindProject(store, projectRef),
                                                 Decrypt(box, FindProject(store, projectRef).value.accessKey).value))
  {
    var found := FindProject(store, projectRef);
    if !Supplied(accessKey) && found.None? && projectRef != "" then
      Step(Err(MissingAccessKey), [])
    else if Supplied(accessKey) && projectRef != "" && found.None? then
      var token := Encrypt(box, iv, accessKey.value);
      var created := Project(newId, projectRef, token);
      var projectData := if variant == Corrected then Some(created) else None;
      Step(Ok(Resolution(projectData, accessKey.value)), [CreateProject(projectRef, token)])
    else if found.None? then
      // only an empty reference reaches here: `decrypt(projectData.accessKey)` on null
      Step(Err(NullProjectData), [])
    else
      match Decrypt(box, found.value.accessKey)
      case Err(e) => Step(Err(Crypto(e)), [])
      case Ok(key) => Step(Ok(Resolution(found, key)), [])
  }

  /** `apiKeyFetchData.data[1]['api_key']`: the key at position one of the list. */
  function SelectRoleKey(keys: seq<ApiKey>): (r: Result<string, Error>)
    ensures r.Ok? <==> |keys| >= 2
    ensures r.Ok? ==> r.value == keys[1].apiKey
    ensures r.Err? ==> r.error == NoRoleKey
  {
    if |keys| < 2 then Err(NoRoleKey) else Ok(keys[1].apiKey)
  }

  /** `initializeSupabase(projectRef, key)` */
  function InitializeClient(projectRef: string, roleKey: string): Client {
    Client("https://" + projectRef + ".supabase.co", roleKey)
  }

  /** `getClient(projectRef, accessKey)`: resolve the key, exchange it for the role key, build the client. */
  function GetClient(variant: Variant, box: CryptoBox, iv: Block, store: seq<Project>, up: Upstream,
                     projectRef: string, accessKey: Option<string>, newId: nat): (s: Step<Session>)
    ensures forall e :: e in s.events ==> e.CreateProject? || e.FetchApiKeys?
    ensures var r := Resolve(variant, box, iv, store, projectRef, accessKey, newId);
            && (r.result.Err? ==> s == Step(Err(r.result.error), r.events))
            && (r.result.Ok? ==> s.events == r.events + [FetchApiKeys(projectRef, r.result.value.key)])
            && (s.result.Ok? <==> r.result.Ok? && up.apiKeys.Some? && |up.apiKeys.value| >= 2)
            && (s.result.Ok? ==>
                  && s.result.value.key == r.result.value.key
                  && s.result.value.projectData == r.result.value.projectData
                  && s.result.value.client.roleKey == up.apiKeys.value[1].apiKey)
  {
    var r := Resolve(variant, box, iv, store, projectRef, accessKey, newId);
    match r.result
    case Err(e) => Step(Err(e), r.events)
    case Ok(resolution) =>
      var events := r.events + [FetchApiKeys(projectRef, resolution.key)];
      match up.apiKeys
      case None => Step(Err(RequestFailed(ApiKeys)), events)
      case Some(keys) =>
        match SelectRoleKey(keys)
        case Err(e) => Step(Err(e), events)
        case Ok(roleKey) =>
          Step(Ok(Session(InitializeClient(projectRef, roleKey), resolution.projectData, resolution.key)), events)
  }

  // ---------------------------------------------------------------- MFA

  /** A user whose factor list came back empty. */
  function Unprotected(counts: map<string, nat>): string -> bool {
    (u: string) => u in counts && counts[u] == 0
  }

  /** The entry `listMfa` pushes for an unprotected user. */
  function NoMfa(userId: string): MfaStatus {
    MfaStatus(userId, false)
  }

  /**
    The loop of `listMfa`: one factor lookup per user in list order, counting
    and collecting the users without factors; stops at the first failed lookup.
   */
  function ScanFactors(users: seq<string>, counts: map<string, nat>): (r: Result<MfaScan, Error>)
    ensures r.Err? <==> exists i :: 0 <= i < |users| && users[i] !in counts
    ensures r.Ok? ==> r.value.failedCount == |r.value.unprotected|
    ensures r.Ok? ==> r.value.unprotected == Map(NoMfa, Filter(users, Unprotected(counts)))
  {
    if |users| == 0 then Ok(MfaScan(0, []))
    else if users[0] !in counts then Err(RequestFailed(ListFactors(users[0])))
    else
      var rest := ScanFactors(users[1..], counts);
      assert forall i :: 1 <= i < |users| ==> users[i] == users[1..][i - 1];
      match rest
      case Err(e) => Err(e)
      case Ok(scan) =>
        if counts[users[0]] == 0 then
          Ok(MfaScan(scan.failedCount + 1, [NoMfa(users[0])] + scan.unprotected))
        else Ok(scan)
  }

  /** The log row of the MFA check. */
  function MfaLog(userCount: int, failedCount: int, projectId: nat): LogEntry {
    LogEntry(MfaEvent, userCount - failedCount, failedCount, Some(MfaHelp), MfaLogMessage, None, projectId)
  }

  /** `listMfa(client, projectData)` */
  function ListMfa(up: Upstream, projectData: Option<Project>): (s: Step<seq<MfaStatus>>)
    ensures s.result.Ok? <==>
              && up.users.Some? && ScanFactors(up.users.value, up.factorCounts).Ok?
              && projectData.Some?
    ensures s.result.Err? ==> s.events == []
    ensures forall e :: e in s.events ==> e.AppendLog?
    ensures s.result.Ok? ==>
              var users := up.users.value;
              && s.result.value == Map(NoMfa, Filter(users, Unprotected(up.factorCounts)))
              && |s.events| == 1 && s.events[0].AppendLog?
              && var entry := s.events[0].entry;
                 && entry.event == MfaEvent
                 && entry.suggestedHelp == Some(MfaHelp) && entry.logMessage == MfaLogMessage && entry.message == None
                 && entry.failureCount == |s.result.value|
                 && entry.successCount == |users| - |s.result.value| >= 0
                 && entry.projectId == projectData.value.id
  {
    match up.users
    case None => Step(Err(RequestFailed(ListUsers)), [])
    case Some(users) =>
      match ScanFactors(users, up.factorCounts)
      case Err(e) => Step(Err(e), [])
      case Ok(scan) =>
        // `projectId: projectData.id` is read when the log row is built
        if projectData.None? then Step(Err(NullProjectData), [])
        else Step(Ok(scan.unprotected), [AppendLog(MfaLog(|users|, scan.failedCount, projectData.value.id))])
  }

  /** The users `listMfa` reports are exactly the users without factors, each once per occurrence, in list order. */
  lemma ListMfaReportsUnprotectedUsers(up: Upstream, projectData: Option<Project>)
    requires ListMfa(up, projectData).result.Ok?
    ensures var users := up.users.value;
            var reported := ListMfa(up, projectData).result.value;
            && (forall u :: NoMfa(u) in reported <==> u in users && u in up.factorCounts && up.factorCounts[u] == 0)
            && (forall j :: 0 <= j < |reported| ==> !reported[j].mfaStatus)
            && |reported| == |Positions(users, Unprotected(up.factorCounts))|
            && IsSubsequence(reported, Map(NoMfa, users))
  {
    var users := up.users.value;
    var p := Unprotected(up.factorCounts);
    forall u
      ensures NoMfa(u) in Map(NoMfa, Filter(users, p)) <==> u in users && p(u)
    {
      MapFilterMembership(NoMfa, users, p, NoMfa(u));
    }
    FilterCount(users, p);
    FilterIsSubsequence(users, p);
    MapSubsequence(NoMfa, Filter(users, p), users);
  }

  /** Mapping keeps the subsequence relation. */
  lemma {:induction false} MapSubsequence<A, B>(f: A -> B, a: seq<A>, b: seq<A>)
    requires IsSubsequence(a, b)
    ensures IsSubsequence(Map(f, a), Map(f, b))
    decreases |b|
  {
    if |a| > 0 {
      assert Map(f, b)[1..] == Map(f, b[1..]);
      if a[0] == b[0] {
        assert Map(f, a)[1..] == Map(f, a[1..]);
        MapSubsequence(f, a[1..], b[1..]);
      } else {
        MapSubsequence(f, a, b[1..]);
        SubsequenceDropHead(Map(f, a), Map(f, b));
      }
    }
  }

  // --------------------------------------------------------------- PITR

  function PitrDisabledLog(projectRef: string, projectId: nat): LogEntry {
    LogEntry(PitrEvent, 0, 1, Some(PitrHelpPrefix + PitrLink(projectRef)),
             PitrLogMessage, None, projectId)
  }

  function PitrEnabledLog(projectId: nat): LogEntry {
    LogEntry(PitrEvent, 1, 0, None, PitrLogMessage, Some(PitrEnabledMessage), projectId)
  }

  /** `getDatabasePITRStatus(projectRef, accessKey, projectData)`; a missing flag reads as disabled. */
  function PitrCheck(up: Upstream, projectRef: string, bearer: string, projectData: Option<Project>): (s: Step<bool>)
    ensures s.result.Ok? <==> up.backups.Some? && projectData.Some?
    ensures |s.events| >= 1 && s.events[0] == FetchBackups(projectRef, bearer)
    ensures s.result.Err? ==> s.events == [FetchBackups(projectRef, bearer)]
    ensures forall e :: e in s.events ==> e == FetchBackups(projectRef, bearer) || e.AppendLog?
    ensures s.result.Ok? ==>
              && (s.result.value <==> up.backups.value.pitrEnabled == Some(true))
              && |s.events| == 2 && s.events[1].AppendLog?
              && var entry := s.events[1].entry;
                 && entry.event == PitrEvent
                 && entry.projectId == projectData.value.id
                 && entry.logMessage == PitrLogMessage
                 && entry.failureCount == (if s.result.value then 0 else 1)
                 && entry.successCount == 1 - entry.failureCount
                 && (!s.result.value ==>
                       entry.suggestedHelp == Some(PitrHelpPrefix + PitrLink(projectRef)) && entry.message == None)
                 && (s.result.value ==> entry.suggestedHelp == None && entry.message == Some(PitrEnabledMessage))
  {
    var fetch := [FetchBackups(projectRef, bearer)];
    match up.backups
    case None => Step(Err(RequestFailed(Backups)), fetch)
    case Some(config) =>
      var enabled := config.pitrEnabled == Some(true);
      if projectData.None? then Step(Err(NullProjectData), fetch)
      else if !enabled then Step(Ok(false), fetch + [AppendLog(PitrDisabledLog(projectRef, projectData.value.id))])
      else Step(Ok(true), fetch + [AppendLog(PitrEnabledLog(projectData.value.id))])
  }

  // ---------------------------------------------------------------- RLS

  /** A table whose row-level security is off. */
  predicate NeedsRls(row: TableRow) {
    !row.relrowsecurity
  }

  /** The entry `getRLS` pushes for a table without row-level security. */
  function Violation(row: TableRow): RlsStatus {
    RlsStatus(row.relname, row.relrowsecurity, RlsResolution, EnableRlsCommand(row.relname))
  }

  /** Every table without row-level security has a remediation statement the database accepts. */
  predicate Remediable(rows: seq<TableRow>, rejected: set<string>) {
    forall i :: 0 <= i < |rows| && NeedsRls(rows[i]) ==> EnableRlsCommand(rows[i].relname) !in rejected
  }

  lemma RemediableCons(rows: seq<TableRow>, rejected: set<string>)
    requires |rows| > 0
    ensures Remediable(rows, rejected)
            <==> (NeedsRls(rows[0]) ==> EnableRlsCommand(rows[0].relname) !in rejected) && Remediable(rows[1..], rejected)
  {
    assert forall i :: 1 <= i < |rows| ==> rows[i] == rows[1..][i - 1];
  }

  /**
    The statements sent are those of the first violations of `all`, in order,
    and the last one sent is the first one the database refused.
   */
  predicate StoppedAtRefusal(events: seq<Event>, all: seq<RlsStatus>, projectRef: string, bearer: string, rejected: set<string>) {
    && 1 <= |events| <= |all|
    && (forall j :: 0 <= j < |events| ==> events[j] == RunQuery(projectRef, bearer, all[j].command))
    && events[|events| - 1].query in rejected
    && (forall j :: 0 <= j < |events| - 1 ==> events[j].query !in rejected)
  }

  /** A statement that was accepted, followed by a scan that stopped at a refusal. */
  lemma StoppedAfterAccepted(q: Event, events: seq<Event>, v: RlsStatus, all: seq<RlsStatus>,
                             projectRef: string, bearer: string, rejected: set<string>)
    requires StoppedAtRefusal(events, all, projectRef, bearer, rejected)
    requires q == RunQuery(projectRef, bearer, v.command) && v.command !in rejected
    ensures StoppedAtRefusal([q] + events, [v] + all, projectRef, bearer, rejected)
  {
    assert forall j :: 1 <= j < |events| + 1 ==> ([q] + events)[j] == events[j - 1] && ([v] + all)[j] == all[j - 1];
  }

  /**
    The loop of `getRLS`: for every table without row-level security, in row
    order, record a violation and send its remediation statement; stops at the
    first statement the database refuses.
   */
  function ScanTables(rows: seq<TableRow>, projectRef: string, bearer: string, rejected: set<string>): (s: Step<seq<RlsStatus>>)
    ensures s.result.Ok? <==> Remediable(rows, rejected)
    ensures s.result.Ok? ==>
              && s.result.value == Map(Violation, Filter(rows, NeedsRls))
              && |s.events| == |s.result.value|
              && forall j :: 0 <= j < |s.events| ==> s.events[j] == RunQuery(projectRef, bearer, s.result.value[j].command)
    ensures s.result.Err? ==> s.result.error.RequestFailed? && s.result.error.endpoint.Query?
    ensures forall i :: 0 <= i < |s.events| ==>
              s.events[i].RunQuery? && s.events[i].projectRef == projectRef && s.events[i].bearer == bearer
  {
    if |rows| == 0 then Step(Ok([]), [])
    else
      RemediableCons(rows, rejected);
      MapFilterCons(Violation, rows, NeedsRls);
      var row := rows[0];
      if !NeedsRls(row) then ScanTables(rows[1..], projectRef, bearer, rejected)
      else
        var command := EnableRlsCommand(row.relname);
        var query := RunQuery(projectRef, bearer, command);
        if command in rejected then Step(Err(RequestFailed(Query(command))), [query])
        else
          var rest := ScanTables(rows[1..], projectRef, bearer, rejected);
          assert forall i :: 1 <= i < |rest.events| + 1 ==> ([query] + rest.events)[i] == rest.events[i - 1];
          match rest.result
          case Err(e) => Step(Err(e), [query] + rest.events)
          case Ok(found) => Step(Ok([Violation(row)] + found), [query] + rest.events)
  }

  /**
    A refusal ends the scan: the statements sent are those of the first
    violations, in row order, and the last one sent is the first one refused,
    whose failure is the scan's error.
   */
  lemma ScanStopsAtFirstRefusal(rows: seq<TableRow>, projectRef: string, bearer: string, rejected: set<string>)
    ensures var s := ScanTables(rows, projectRef, bearer, rejected);
            s.result.Err? ==>
              && StoppedAtRefusal(s.events, Map(Violation, Filter(rows, NeedsRls)), projectRef, bearer, rejected)
              && s.result.error == RequestFailed(Query(s.events[|s.events| - 1].query))
  {
    ScanStopsAtRefusal(rows, projectRef, bearer, rejected);
    ScanFailsOnLastQuery(rows, projectRef, bearer, rejected);
  }

  lemma {:induction false} ScanStopsAtRefusal(rows: seq<TableRow>, projectRef: string, bearer: string, rejected: set<string>)
    ensures var s := ScanTables(rows, projectRef, bearer, rejected);
            s.result.Err? ==> StoppedAtRefusal(s.events, Map(Violation, Filter(rows, NeedsRls)), projectRef, bearer, rejected)
  {
    var s := ScanTables(rows, projectRef, bearer, rejected);
    if |rows| > 0 && s.result.Err? {
      var row := rows[0];
      var command := EnableRlsCommand(row.relname);
      var query := RunQuery(projectRef, bearer, command);
      var rest := ScanTables(rows[1..], projectRef, bearer, rejected);
      var all := Map(Violation, Filter(rows, NeedsRls));
      var others := Map(Violation, Filter(rows[1..], NeedsRls));
      assert all == if NeedsRls(row) then [Violation(row)] + others else others by {
        MapFilterCons(Violation, rows, NeedsRls);
      }
      if !NeedsRls(row) {
        assert s == rest;
        ScanStopsAtRefusal(rows[1..], projectRef, bearer, rejected);
      } else if command in rejected {
        assert s.events == [query];
        assert all[0].command == command;
      } else {
        assert s.events == [query] + rest.events && s.result == rest.result;
        ScanStopsAtRefusal(rows[1..], projectRef, bearer, rejected);
        StoppedAfterAccepted(query, rest.events, Violation(row), others, projectRef, bearer, rejected);
      }
    }
  }

  lemma {:induction false} ScanFailsOnLastQuery(rows: seq<TableRow>, projectRef: string, bearer: string, rejected: set<string>)
    ensures var s := ScanTables(rows, projectRef, bearer, rejected);
            s.result.Err? ==> |s.events| >= 1 && s.result.error == RequestFailed(Query(s.events[|s.events| - 1].query))
  {
    var s := ScanTables(rows, projectRef, bearer, rejected);
    if |rows| > 0 && s.result.Err? {
      var row := rows[0];
      var command := EnableRlsCommand(row.relname);
      var rest := ScanTables(rows[1..], projectRef, bearer, rejected);
      if !NeedsRls(row) {
        assert s == rest;
        ScanFailsOnLastQuery(rows[1..], projectRef, bearer, rejected);
      } else if command in rejected {
        assert s == Step(Err(RequestFailed(Query(command))), [RunQuery(projectRef, bearer, command)]);
      } else {
        assert s.events == [RunQuery(projectRef, bearer, command)] + rest.events && s.result == rest.result;
        ScanFailsOnLastQuery(rows[1..], projectRef, bearer, rejected);
        assert s.events[|s.events| - 1] == rest.events[|rest.events| - 1];
      }
    }
  }

  function RlsLog(totalCount: int, failedCount: int, projectId: nat): LogEntry {
    LogEntry(RlsEvent, totalCount - failedCount, failedCount,
             Some(if failedCount > 0 then RlsHelpFailed else RlsHelpNone),
             RlsLogMessage,
             Some(if failedCount > 0 then RlsMessageFailed else RlsMessageNone),
             projectId)
  }

  /** `getRLS(client, projectRef, projectData, accessKey)` */
  function GetRls(up: Upstream, projectRef: string, bearer: string, projectData: Option<Project>): (s: Step<seq<RlsStatus>>)
    ensures |s.events| >= 1 && s.events[0] == RunQuery(projectRef, bearer, RlsIntrospectionQuery)
    ensures s.result.Ok? <==>
              && up.tables.Some? && projectData.Some?
              && ScanTables(up.tables.value, projectRef, bearer, up.rejected).result.Ok?
    ensures s.result.Err? ==> Logs(s.events) == []
    // a refused remediation or a missing record ends the check after the scan, with nothing logged
    ensures up.tables.Some? && s.result.Err? ==>
              s.events == [RunQuery(projectRef, bearer, RlsIntrospectionQuery)]
                          + ScanTables(up.tables.value, projectRef, bearer, up.rejected).events
    ensures forall e :: e in s.events ==> (e.RunQuery? && e.projectRef == projectRef && e.bearer == bearer) || e.AppendLog?
    ensures s.result.Ok? ==>
              var rows := up.tables.value;
              var found := s.result.value;
              && found == Map(Violation, Filter(rows, NeedsRls))
              && |s.events| >= 2
              && s.events[1..|s.events| - 1] == ScanTables(rows, projectRef, bearer, up.rejected).events
              && s.events[|s.events| - 1].AppendLog?
              && var entry := s.events[|s.events| - 1].entry;
                 && Logs(s.events) == [entry]
                 && entry.event == RlsEvent
                 && entry.failureCount == |found|
                 && entry.successCount == |rows| - |found| >= 0
                 && entry.projectId == projectData.value.id
                 && entry.logMessage == RlsLogMessage
                 && entry.message == Some(if |found| > 0 then RlsMessageFailed else RlsMessageNone)
                 && entry.suggestedHelp == Some(if |found| > 0 then RlsHelpFailed else RlsHelpNone)
  {
    var intro := [RunQuery(projectRef, bearer, RlsIntrospectionQuery)];
    match up.tables
    case None => Step(Err(RequestFailed(Query(RlsIntrospectionQuery))), intro)
    case Some(rows) =>
      var scan := ScanTables(rows, projectRef, bearer, up.rejected);
      if scan.result.Err? then
        RlsStopped(projectRef, bearer, scan.events);
        Step(scan.result, intro + scan.events)
      else if projectData.None? then
        RlsStopped(projectRef, bearer, scan.events);
        Step(Err(NullProjectData), intro + scan.events)
      else
        var entry := RlsLog(|rows|, |scan.result.value|, projectData.value.id);
        RlsLogged(projectRef, bearer, scan.events, entry);
        Step(scan.result, intro + scan.events + [AppendLog(entry)])
  }

  /** The scan's queries, each naming the reference and the bearer. */
  predicate ScanQueriesOf(scan: seq<Event>, projectRef: string, bearer: string) {
    forall i :: 0 <= i < |scan| ==> scan[i].RunQuery? && scan[i].projectRef == projectRef && scan[i].bearer == bearer
  }

  /** The trace of an RLS check that stops after the scan: the introspection query and the scan's queries, no log. */
  lemma RlsStopped(projectRef: string, bearer: string, scan: seq<Event>)
    requires ScanQueriesOf(scan, projectRef, bearer)
    ensures var events := [RunQuery(projectRef, bearer, RlsIntrospectionQuery)] + scan;
            && Logs(events) == []
            && forall e :: e in events ==> (e.RunQuery? && e.projectRef == projectRef && e.bearer == bearer) || e.AppendLog?
  {
    var events := [RunQuery(projectRef, bearer, RlsIntrospectionQuery)] + scan;
    LogsNone(events);
  }

  /** The trace of an RLS check that logs: the introspection query, the scan's queries, then the one log row. */
  lemma RlsLogged(projectRef: string, bearer: string, scan: seq<Event>, entry: LogEntry)
    requires ScanQueriesOf(scan, projectRef, bearer)
    ensures var events := [RunQuery(projectRef, bearer, RlsIntrospectionQuery)] + scan + [AppendLog(entry)];
            && |events| >= 2
            && events[1..|events| - 1] == scan
            && events[|events| - 1] == AppendLog(entry)
            && Logs(events) == [entry]
            && forall e :: e in events ==> (e.RunQuery? && e.projectRef == projectRef && e.bearer == bearer) || e.AppendLog?
  {
    var intro := [RunQuery(projectRef, bearer, RlsIntrospectionQuery)];
    LogsNone(intro + scan);
    LogsAppend(intro + scan, [AppendLog(entry)]);
    assert (intro + scan + [AppendLog(entry)])[1..|scan| + 1] == scan;
  }

  /**
    Each table without row-level security yields exactly one violation and
    exactly one remediation query with the same statement, in row order; a
    table that has it yields neither.
   */
  lemma RemediationPerViolation(rows: seq<TableRow>, projectRef: string, bearer: string, rejected: set<string>)
    requires ScanTables(rows, projectRef, bearer, rejected).result.Ok?
    ensures var s := ScanTables(rows, projectRef, bearer, rejected);
            var found := s.result.value;
            && |found| == |Positions(rows, NeedsRls)|
            && (forall v :: v in found <==> exists row :: row in rows && !row.relrowsecurity && Violation(row) == v)
            && IsSubsequence(found, Map(Violation, rows))
            && (forall j :: 0 <= j < |found| ==>
                  && !found[j].rlsStatus
                  && found[j].command == "alter table " + found[j].tableName + " enable row level security;"
                  && s.events[j] == RunQuery(projectRef, bearer, found[j].command))
  {
    FilterCount(rows, NeedsRls);
    forall v
      ensures v in Map(Violation, Filter(rows, NeedsRls)) <==> exists row :: row in rows && NeedsRls(row) && Violation(row) == v
    {
      MapFilterMembership(Violation, rows, NeedsRls, v);
    }
    FilterIsSubsequence(rows, NeedsRls);
    MapSubsequence(Violation, Filter(rows, NeedsRls), rows);
  }
}

=== FILE: fields.dfy ===
/**
  JavaScript's `String.prototype.split` with a one-character separator and
  `Array.prototype.join` with the same separator.
 */
module Fields {

  /** `s.split(sep)`: never empty; no field contains the separator. */
  function Split(s: string, sep: char): (r: seq<string>)
    ensures |r| >= 1
    ensures forall i :: 0 <= i < |r| ==> sep !in r[i]
  {
    if |s| == 0 then [""]
    else
      var rest := Split(s[1..], sep);
      if s[0] == sep then [""] + rest
      else [[s[0]] + rest[0]] + rest[1..]
  }

  /** `fields.join(sep)`; the empty array joins to the empty string. */
  function Join(fields: seq<string>, sep: char): (r: string)
    ensures |fields| == 0 ==> r == ""
    ensures |fields| > 0 ==> fields[0] <= r
    ensures |fields| > 1 ==> |fields[0]| < |r| && r[|fields[0]|] == sep
  {
    if |fields| == 0 then ""
    else if |fields| == 1 then fields[0]
    else fields[0] + [sep] + Join(fields[1..], sep)
  }

  /** There is one field more than there are separators. */
  lemma {:induction false} SplitCount(s: string, sep: char)
    ensures |Split(s, sep)| == multiset(s)[sep] + 1
  {
    if |s| > 0 {
      SplitCount(s[1..], sep);
      assert s == [s[0]] + s[1..];
      assert multiset(s) == multiset([s[0]]) + multiset(s[1..]);
    }
  }

  /** A string without the separator is one field. */
  lemma {:induction false} SplitWhole(a: string, sep: char)
    requires sep !in a
    ensures Split(a, sep) == [a]
  {
    if |a| > 0 {
      assert sep !in a[1..];
      SplitWhole(a[1..], sep);
      assert [a[0]] + a[1..] == a;
    }
  }

  /** A separator-free prefix followed by the separator is split off as the first field. */
  lemma {:induction false} SplitFirst(a: string, sep: char, b: string)
    requires sep !in a
    ensures Split(a + [sep] + b, sep) == [a] + Split(b, sep)
  {
    var s := a + [sep] + b;
    if |a| == 0 {
      assert s[0] == sep && s[1..] == b;
    } else {
      assert s[0] == a[0];
      assert s[1..] == a[1..] + [sep] + b;
      assert sep !in a[1..];
      SplitFirst(a[1..], sep, b);
      assert [a[0]] + a[1..] == a;
    }
  }

  /** Splitting and re-joining gives the original string. */
  lemma {:induction false} JoinSplit(s: string, sep: char)
    ensures Join(Split(s, sep), sep) == s
  {
    if |s| > 0 {
      var rest := Split(s[1..], sep);
      JoinSplit(s[1..], sep);
      if s[0] == sep {
        assert s == [sep] + s[1..];
      } else if |rest| == 1 {
        assert s == [s[0]] + s[1..];
      } else {
        var r := Split(s, sep);
        assert r == [[s[0]] + rest[0]] + rest[1..];
        assert r[1..] == rest[1..];
        assert Join(rest, sep) == rest[0] + [sep] + Join(rest[1..], sep);
        assert s == [s[0]] + s[1..];
      }
    }
  }

  /** Joining separator-free fields and splitting again gives the fields back. */
  lemma {:induction false} SplitJoin(fields: seq<string>, sep: char)
    requires |fields| >= 1
    requires forall i :: 0 <= i < |fields| ==> sep !in fields[i]
    ensures Split(Join(fields, sep), sep) == fields
  {
    if |fields| == 1 {
      SplitWhole(fields[0], sep);
    } else {
      SplitJoin(fields[1..], sep);
      SplitFirst(fields[0], sep, Join(fields[1..], sep));
      assert [fields[0]] + fields[1..] == fields;
    }
  }
}

=== FILE: first_pass.dfy ===
/**
  The first audit pass for a project reference the store does not know yet:
  the code as written creates the record and then fails, the corrected code
  completes the pass; and every later pass recovers the key the first stored.
 */
module FirstPass {
  import opened Results
  import opened Helper
  import opened Seqs
  import opened Checks
  import opened Route

  /** A stored record appended after records for other references is the one found. */
  lemma FindAppended(store: seq<Project>, record: Project)
    requires FindProject(store, record.projectRef).None?
    ensures FindProject(store + [record], record.projectRef) == Some(record)
  {
    var all := store + [record];
    assert all[|store|] == record;
    assert forall i :: 0 <= i < |store| ==> all[i] == store[i];
  }

  /**
    As written, the first pass for an unknown reference with a supplied key
    never succeeds: it stores the encrypted key and then fails before any log
    row or SQL statement. When the key list, the user listing and the factor
    lookups answer, it fails on the id of the record it was never handed:
    after the key-list request, the user listing and the factor lookups, and
    before any further management-API request.
   */
  lemma FirstPassFailsAsWritten(env: Env, store: seq<Project>, up: Upstream, projectRef: string, body: Option<string>)
    requires FindProject(store, projectRef).None? && projectRef != "" && Supplied(body)
    ensures var s := RunSystemChecks(AsWritten, env, store, up, projectRef, body);
            && s.result.Err?
            && |s.events| >= 1 && s.events[0] == CreateProject(projectRef, Encrypt(env.box, env.iv, body.value))
            && Logs(s.events) == []
            && Queries(s.events) == []
    ensures up.apiKeys.Some? && |up.apiKeys.value| >= 2 ==>
              up.users.Some? && (forall u :: u in up.users.value ==> u in up.factorCounts) ==>
              RunSystemChecks(AsWritten, env, store, up, projectRef, body)
              == Step(Err(NullProjectData),
                      [CreateProject(projectRef, Encrypt(env.box, env.iv, body.value)), FetchApiKeys(projectRef, body.value)])
  {
    var s := RunSystemChecks(AsWritten, env, store, up, projectRef, body);
    var c := GetClient(AsWritten, env.box, env.iv, store, up, projectRef, BodyKey(body), env.newId);
    assert c.events != [] && c.events[0] == CreateProject(projectRef, Encrypt(env.box, env.iv, body.value))
           && (c.result.Ok? ==> c.result.value.projectData == None && c.result.value.key == body.value) by {
      var r := Resolve(AsWritten, env.box, env.iv, store, projectRef, BodyKey(body), env.newId);
      assert r.events != [];
    }
    if c.result.Ok? {
      AuditWithoutRecord(up, projectRef, Bearer(body, c.result.value.key));
      assert c.events + [] == c.events;
    }
    assert s.events == c.events;
    ClientWritesNoLog(c.events);
    NoQueries(c.events);
  }

  /**
    Without a record the audit stops in its first check, before any
    management-API request or log row; the user listing and factor lookups of
    that check may already have been sent.
   */
  lemma AuditWithoutRecord(up: Upstream, projectRef: string, bearer: string)
    ensures var a := Audit(up, projectRef, bearer, None);
            && a.result.Err? && a.events == []
            && (up.users.Some? && (forall u :: u in up.users.value ==> u in up.factorCounts) ==>
                  a.result == Err(NullProjectData))
  {
    if up.users.Some? && (forall u :: u in up.users.value ==> u in up.factorCounts) {
      assert ScanFactors(up.users.value, up.factorCounts).Ok? by {
        forall i | 0 <= i < |up.users.value| ensures up.users.value[i] in up.factorCounts {
          assert up.users.value[i] in up.users.value;
        }
      }
    }
  }

  /** The three checks all complete once there is a record and every remote call answers. */
  lemma AuditCompletes(up: Upstream, projectRef: string, bearer: string, projectData: Option<Project>)
    requires projectData.Some?
    requires up.users.Some? && forall u :: u in up.users.value ==> u in up.factorCounts
    requires up.backups.Some? && up.tables.Some?
    requires forall row :: row in up.tables.value && !row.relrowsecurity ==> EnableRlsCommand(row.relname) !in up.rejected
    ensures Audit(up, projectRef, bearer, projectData).result.Ok?
  {
  }

  /**
    A pass for a stored record whose access key decrypts completes, under
    either variant, whenever the project's API keys are listed and the three
    checks can complete.
   */
  lemma StoredPassSucceeds(variant: Variant, env: Env, store: seq<Project>, up: Upstream,
                           projectRef: string, body: Option<string>)
    requires FindProject(store, projectRef).Some?
    requires Decrypt(env.box, FindProject(store, projectRef).value.accessKey).Ok?
    requires up.apiKeys.Some? && |up.apiKeys.value| >= 2
    requires up.users.Some? && forall u :: u in up.users.value ==> u in up.factorCounts
    requires up.backups.Some? && up.tables.Some?
    requires forall row :: row in up.tables.value && !row.relrowsecurity ==> EnableRlsCommand(row.relname) !in up.rejected
    ensures RunSystemChecks(variant, env, store, up, projectRef, body).result.Ok?
  {
    var c := GetClient(variant, env.box, env.iv, store, up, projectRef, BodyKey(body), env.newId);
    AuditCompletes(up, projectRef, Bearer(body, c.result.value.key), c.result.value.projectData);
  }

  /** Corrected, the client of a first pass carries the record it has just created. */
  lemma CorrectedClientCarriesRecord(env: Env, store: seq<Project>, up: Upstream, projectRef: string, body: Option<string>)
    requires FindProject(store, projectRef).None? && projectRef != "" && Supplied(body)
    requires up.apiKeys.Some? && |up.apiKeys.value| >= 2
    ensures var c := GetClient(Corrected, env.box, env.iv, store, up, projectRef, BodyKey(body), env.newId);
            && c.result.Ok?
            && c.result.value.projectData == Some(Project(env.newId, projectRef, Encrypt(env.box, env.iv, body.value)))
  {
  }

  /**
    Corrected (the created record is handed on), the same first pass completes
    whenever the remote services answer, and its three log rows refer to the
    new record.
   */
  lemma FirstPassSucceeds(env: Env, store: seq<Project>, up: Upstream, projectRef: string, body: Option<string>)
    requires FindProject(store, projectRef).None? && projectRef != "" && Supplied(body)
    requires up.apiKeys.Some? && |up.apiKeys.value| >= 2
    requires up.users.Some? && forall u :: u in up.users.value ==> u in up.factorCounts
    requires up.backups.Some? && up.tables.Some?
    requires forall row :: row in up.tables.value && !row.relrowsecurity ==> EnableRlsCommand(row.relname) !in up.rejected
    ensures var s := RunSystemChecks(Corrected, env, store, up, projectRef, body);
            && s.result.Ok?
            && |Logs(s.events)| == 3
            && forall entry :: entry in Logs(s.events) ==> entry.projectId == env.newId
  {
    var s := RunSystemChecks(Corrected, env, store, up, projectRef, body);
    var c := GetClient(Corrected, env.box, env.iv, store, up, projectRef, BodyKey(body), env.newId);
    CorrectedClientCarriesRecord(env, store, up, projectRef, body);
    assert s.result.Ok? by {
      AuditCompletes(up, projectRef, body.value, c.result.value.projectData);
    }
    assert |Logs(s.events)| == 3 by {
      PassWritesThreeLogs(Corrected, env, store, up, projectRef, body);
    }
    PassLogsBelongToRecord(Corrected, env, store, up, projectRef, body);
  }

  /** The correction changes nothing except the first pass for an unknown reference with a supplied key. */
  lemma VariantsAgreeOtherwise(env: Env, store: seq<Project>, up: Upstream, projectRef: string, body: Option<string>)
    requires FindProject(store, projectRef).Some? || !Supplied(body) || projectRef == ""
    ensures RunSystemChecks(AsWritten, env, store, up, projectRef, body)
            == RunSystemChecks(Corrected, env, store, up, projectRef, body)
  {
  }

  /**
    The record a first pass stores is found and decrypted by every later pass,
    also one in a process that drew a different salt, and its key wins over any
    key that later pass supplies.
   */
  lemma LaterPassRecoversStoredKey(variant: Variant, env1: Env, env2: Env, store: seq<Project>, up: Upstream,
                                  projectRef: string, body1: Option<string>, body2: Option<string>)
    requires FindProject(store, projectRef).None? && projectRef != "" && Supplied(body1)
    requires env2.box.prims == env1.box.prims && CipherRoundTrips(env1.box.prims)
    ensures var token := Encrypt(env1.box, env1.iv, body1.value);
            var record := Project(env1.newId, projectRef, token);
            && Creations(RunSystemChecks(variant, env1, store, up, projectRef, body1).events)
               == [CreateProject(projectRef, token)]
            && Resolve(variant, env2.box, env2.iv, store + [record], projectRef, BodyKey(body2), env2.newId)
               == Step(Ok(Resolution(Some(record), body1.value)), [])
  {
    var token := Encrypt(env1.box, env1.iv, body1.value);
    var record := Project(env1.newId, projectRef, token);
    PassCreatesAtMostOnce(variant, env1, store, up, projectRef, body1);
    FindAppended(store, record);
    DecryptEncrypt(env1.box, env2.box, env1.iv, body1.value);
  }

  // ---------------------------------------------------- one worked pass

  /** Two users (`u1` with a factor, `u2` without), PITR off, one table `orders` without RLS. */
  const ScenarioUpstream := Upstream(
    Some([ApiKey("anon", "anon-key"), ApiKey("service_role", "service-role-key")]),
    Some(["u1", "u2"]),
    map["u1" := 1, "u2" := 0],
    Some(BackupConfig(Some(false))),
    Some([TableRow("orders", false, false)]),
    {})

  const ScenarioReport := Report(
    MfaData([MfaStatus("u2", false)], Some(MfaHelp), Some(MfaDocLink)),
    PitrData(false, Some(PitrResolution), Some(PitrLink("abc123"))),
    RlsData([RlsStatus("orders", false, RlsResolution, EnableRlsCommand("orders"))]))

  /** The inputs of the worked pass: reference `abc123`, key `sk_test`, `ScenarioUpstream`. */
  predicate IsScenario(up: Upstream, projectRef: string, body: Option<string>) {
    up == ScenarioUpstream && projectRef == "abc123" && body == Some("sk_test")
  }

  /** The users without a factor and the tables without RLS in the worked pass. */
  lemma ScenarioSelections(up: Upstream)
    requires up == ScenarioUpstream
    ensures Map(NoMfa, Filter(up.users.value, Unprotected(up.factorCounts))) == ScenarioReport.mfaData.mfaStatus
    ensures Map(Violation, Filter(up.tables.value, NeedsRls)) == ScenarioReport.rlsData.rlsStatus
  {
    var users := up.users.value;
    assert users[1..] == ["u2"] && users[1..][1..] == [];
    assert Filter(users, Unprotected(up.factorCounts)) == ["u2"];
    var rows := up.tables.value;
    assert rows[1..] == [];
    assert Filter(rows, NeedsRls) == rows;
  }

  /** The first pass of the worked example, corrected, returns the expected report. */
  lemma ScenarioReportHolds(env: Env, up: Upstream, projectRef: string, body: Option<string>)
    requires IsScenario(up, projectRef, body)
    ensures RunSystemChecks(Corrected, env, [], up, projectRef, body).result == Ok(ScenarioReport)
  {
    FirstPassSucceeds(env, [], up, projectRef, body);
    PassTrace(Corrected, env, [], up, projectRef, body);
    var c := GetClient(Corrected, env.box, env.iv, [], up, projectRef, BodyKey(body), env.newId);
    var a := Audit(up, projectRef, Bearer(body, c.result.value.key), c.result.value.projectData);
    assert a.result.value == ScenarioReport by {
      ScenarioSelections(up);
      var report := a.result.value;
      assert report.mfaData == ScenarioReport.mfaData;
      assert report.pitrData == ScenarioReport.pitrData;
      assert report.rlsData == ScenarioReport.rlsData;
    }
  }

  /** The same pass as written: the record is stored, the key list fetched, and the pass fails before any log row. */
  lemma ScenarioAsWritten(env: Env, up: Upstream, projectRef: string, body: Option<string>)
    requires IsScenario(up, projectRef, body)
    ensures RunSystemChecks(AsWritten, env, [], up, projectRef, body)
            == Step(Err(NullProjectData),
                    [CreateProject("abc123", Encrypt(env.box, env.iv, "sk_test")), FetchApiKeys("abc123", "sk_test")])
  {
    FirstPassFailsAsWritten(env, [], up, projectRef, body);
  }
}

=== FILE: helper.dfy ===
/**
  The credential box of helpers/helper.js: `encrypt` turns an access key into
  the token `saltHex:ivHex:cipherHex`, `decrypt` turns such a token back.

  AES-256-CBC, PBKDF2 and the random generator are not modelled: the first two
  are the function values of a `Primitives` record, the random bytes are
  parameters. The one thing assumed of the cipher is `CipherRoundTrips`.
 */
module Helper {
  import opened Results
  import opened Hex
  import opened Fields
  import opened Utf16

  const Password := "your-strong-password"
  const Iterations := 100000
  const KeyLength := 32
  const DigestName := "sha256"
  /** `crypto.randomBytes(16)`, used for both the salt and the IV. */
  const RandomLength := 16
  const Separator := ':'

  /** Sixteen random bytes as `crypto.randomBytes(16)` returns them. */
  type Block = b: Bytes | |b| == RandomLength witness seq(16, i => 0)

  /**
    The cryptographic primitives the helper calls:
    `pbkdf2(password, salt, iterations, keyLength, digest)`, and the
    AES-256-CBC encipher (utf8 plaintext to ciphertext bytes) and decipher
    (ciphertext bytes to utf8 plaintext, `None` when `final()` throws).
   */
  datatype Primitives = Primitives(
    pbkdf2: (string, Bytes, nat, nat, string) -> Bytes,
    encipher: (Bytes, Bytes, string) -> Bytes,
    decipher: (Bytes, Bytes, Bytes) -> Option<string>)

  /** The assumed property of the cipher: deciphering with the key and IV used to encipher gives the plaintext. */
  ghost predicate CipherRoundTrips(p: Primitives) {
    forall key: Bytes, iv: Bytes, text: string ::
      |iv| == RandomLength ==> p.decipher(key, iv, p.encipher(key, iv, text)) == Some(text)
  }

  /** The helper module as loaded in one process: its salt is drawn once, at load time. */
  datatype CryptoBox = CryptoBox(prims: Primitives, salt: Block) {
    /** The key derived at load time from the process salt. */
    function Key(): Bytes {
      DeriveKey(prims, salt)
    }
  }

  datatype CryptoError =
    | MalformedToken   // fewer than two fields: `Buffer.from(undefined, 'hex')` throws
    | InvalidIv        // `createDecipheriv` refuses an IV that is not 16 bytes
    | OddCiphertext    // `decipher.update(_, 'hex', _)` refuses text whose `length` is odd
    | DecryptionFailed // `decipher.final()` throws

  /** The three fields `decrypt` reads out of a token, already hex-decoded. */
  datatype TokenParts = TokenParts(salt: Bytes, iv: Bytes, ciphertext: Bytes)

  /** `crypto.pbkdf2Sync(password, salt, 100000, 32, 'sha256')`; equal salts give equal keys. */
  function DeriveKey(p: Primitives, salt: Bytes): (k: Bytes)
    ensures k == p.pbkdf2("your-strong-password", salt, 100000, 32, "sha256")
  {
    p.pbkdf2(Password, salt, Iterations, KeyLength, DigestName)
  }

  /** The token text: three hex fields joined by colons. */
  function FormatToken(salt: Bytes, iv: Bytes, ciphertext: Bytes): (token: string)
    ensures Split(token, Separator) == [Encode(salt), Encode(iv), Encode(ciphertext)]
  {
    ThreeFields(Encode(salt), Encode(iv), Encode(ciphertext));
    Encode(salt) + [Separator] + Encode(iv) + [Separator] + Encode(ciphertext)
  }

  /** The ciphertext field as text: every field after the second, re-joined with colons. */
  function CipherField(token: string): string {
    var parts := Split(token, Separator);
    if |parts| < 2 then "" else Join(parts[2..], Separator)
  }

  /**
    The parsing half of `decrypt`: field one is the salt, field two the IV,
    and every remaining field is re-joined with colons to form the ciphertext.
   */
  function ParseToken(token: string): (r: Result<TokenParts, CryptoError>)
    ensures r.Err? <==> |Split(token, Separator)| < 2
    ensures r.Err? ==> r.error == MalformedToken
  {
    var parts := Split(token, Separator);
    if |parts| < 2 then Err(MalformedToken)
    else Ok(TokenParts(Decode(parts[0]), Decode(parts[1]), Decode(CipherField(token))))
  }

  /** `encrypt(text)`: the process salt, a fresh IV, and the ciphertext under the process key. */
  function Encrypt(box: CryptoBox, iv: Block, text: string): (token: string)
    ensures ParseToken(token) == Ok(TokenParts(box.salt, iv, box.prims.encipher(box.Key(), iv, text)))
    ensures CipherField(token) == Encode(box.prims.encipher(box.Key(), iv, text))
    ensures |Units(CipherField(token))| % 2 == 0
  {
    var ciphertext := box.prims.encipher(box.Key(), iv, text);
    ParseFormat(box.salt, iv, ciphertext);
    EncodedUnits(ciphertext);
    Parity(|ciphertext|, 0, |Units(Encode(ciphertext))|);
    FormatToken(box.salt, iv, ciphertext)
  }

  /**
    `decrypt(token)`: re-derives the key from the salt embedded in the token
    with the fixed password and parameters, so it does not depend on the salt
    of the process that runs it.
   */
  function Decrypt(box: CryptoBox, token: string): (r: Result<string, CryptoError>)
    ensures |Split(token, Separator)| < 2 ==> r == Err(MalformedToken)
    ensures r == Err(InvalidIv) <==> ParseToken(token).Ok? && |ParseToken(token).value.iv| != RandomLength
    ensures r == Err(OddCiphertext)
            <==> ParseToken(token).Ok? && |ParseToken(token).value.iv| == RandomLength
                 && |Units(CipherField(token))| % 2 == 1
    ensures r.Ok? ==>
              && ParseToken(token).Ok? && |ParseToken(token).value.iv| == RandomLength
              && |Units(CipherField(token))| % 2 == 0
  {
    match ParseToken(token)
    case Err(e) => Err(e)
    case Ok(parts) =>
      var key := DeriveKey(box.prims, parts.salt);
      if |parts.iv| != RandomLength then Err(InvalidIv)
      else if |Units(CipherField(token))| % 2 == 1 then Err(OddCiphertext)
      else match box.prims.decipher(key, parts.iv, parts.ciphertext)
        case None => Err(DecryptionFailed)
        case Some(text) => Ok(text)
  }

  /** A token whose first two fields are colon-free parses into those fields and the whole remainder, colons included. */
  lemma ParseRejoins(salt: string, iv: string, rest: string)
    requires Separator !in salt && Separator !in iv
    ensures ParseToken(salt + [Separator] + iv + [Separator] + rest)
            == Ok(TokenParts(Decode(salt), Decode(iv), Decode(rest)))
  {
    var token := salt + [Separator] + iv + [Separator] + rest;
    RejoinedFields(salt, iv, rest);
    var parts := Split(token, Separator);
    assert parts[0] == salt && parts[1] == iv;
  }

  /** The field-level half of `ParseRejoins`: two leading fields, then the remainder as the cipher field. */
  lemma RejoinedFields(salt: string, iv: string, rest: string)
    requires Separator !in salt && Separator !in iv
    ensures var token := salt + [Separator] + iv + [Separator] + rest;
            && Split(token, Separator) == [salt, iv] + Split(rest, Separator)
            && CipherField(token) == rest
  {
    var tail := iv + [Separator] + rest;
    var token := salt + [Separator] + iv + [Separator] + rest;
    var parts := Split(token, Separator);
    assert parts == [salt, iv] + Split(rest, Separator) by {
      assert token == salt + [Separator] + tail;
      SplitFirst(salt, Separator, tail);
      SplitFirst(iv, Separator, rest);
    }
    assert parts[2..] == Split(rest, Separator);
    JoinSplit(rest, Separator);
  }

  /** Parsing a formatted token recovers exactly the salt, IV and ciphertext written into it. */
  lemma ParseFormat(salt: Bytes, iv: Bytes, ciphertext: Bytes)
    ensures ParseToken(FormatToken(salt, iv, ciphertext)) == Ok(TokenParts(salt, iv, ciphertext))
  {
    ParseRejoins(Encode(salt), Encode(iv), Encode(ciphertext));
    assert FormatToken(salt, iv, ciphertext)
        == Encode(salt) + [Separator] + Encode(iv) + [Separator] + Encode(ciphertext);
    DecodeEncode(salt);
    DecodeEncode(iv);
    DecodeEncode(ciphertext);
  }

  /**
    Decryption inverts encryption, whichever process encrypted: `current` may
    have drawn a different salt from `earlier`, as after a restart.
   */
  lemma DecryptEncrypt(earlier: CryptoBox, current: CryptoBox, iv: Block, text: string)
    requires earlier.prims == current.prims
    requires CipherRoundTrips(earlier.prims)
    ensures Decrypt(current, Encrypt(earlier, iv, text)) == Ok(text)
  {
  }

  /** A token with one more non-colon character keeps its salt and IV; the character joins the ciphertext field. */
  lemma ExtendedToken(box: CryptoBox, iv: Block, text: string, c: char)
    requires c != Separator
    ensures var field := Encode(box.prims.encipher(box.Key(), iv, text)) + [c];
            && ParseToken(Encrypt(box, iv, text) + [c]) == Ok(TokenParts(box.salt, iv, Decode(field)))
            && CipherField(Encrypt(box, iv, text) + [c]) == field
  {
    var field := Encode(box.prims.encipher(box.Key(), iv, text)) + [c];
    assert Encrypt(box, iv, text) + [c] == Encode(box.salt) + [Separator] + Encode(iv) + [Separator] + field;
    ThreeFields(Encode(box.salt), Encode(iv), field);
    ParseRejoins(Encode(box.salt), Encode(iv), field);
    DecodeEncode(box.salt);
    DecodeEncode(iv);
  }

  /**
    A token whose ciphertext field gains one more basic-plane character is
    refused, although reading that field as `Buffer.from(_, 'hex')` would drop it.
   */
  lemma OddDigitRejected(box: CryptoBox, iv: Block, text: string, digit: char)
    requires digit != Separator && IsBmp(digit)
    ensures Decrypt(box, Encrypt(box, iv, text) + [digit]) == Err(OddCiphertext)
  {
    var hex := Encode(box.prims.encipher(box.Key(), iv, text));
    var token := Encrypt(box, iv, text) + [digit];
    assert ParseToken(token).Ok? && ParseToken(token).value.iv == iv && CipherField(token) == hex + [digit] by {
      ExtendedToken(box, iv, text, digit);
    }
    var n := |Units(CipherField(token))|;
    assert n == |hex| + 1 by {
      EncodedUnits(box.prims.encipher(box.Key(), iv, text));
      UnitsAppend(hex, [digit]);
    }
    Parity(|box.prims.encipher(box.Key(), iv, text)|, 1, n);
  }

  /** Adding an even number keeps the parity. */
  lemma Parity(m: int, k: int, n: int)
    requires n == 2 * m + k
    ensures n % 2 == k % 2
  {
  }

  /**
    A token whose ciphertext field gains one character outside the basic plane
    keeps an even `length`, so it is not refused for its length; the field reads
    as the original ciphertext followed by whatever the character's surrogate
    pair reads as. When the pair reads as nothing, decryption still succeeds.
   */
  lemma AstralCharacterKept(box: CryptoBox, iv: Block, text: string, c: char)
    requires !IsBmp(c)
    ensures var token := Encrypt(box, iv, text) + [c];
            var ciphertext := box.prims.encipher(box.Key(), iv, text);
            && ParseToken(token) == Ok(TokenParts(box.salt, iv, ciphertext + Decode([c])))
            && |Units(CipherField(token))| % 2 == 0
    ensures Decode([c]) == [] && CipherRoundTrips(box.prims) ==> Decrypt(box, Encrypt(box, iv, text) + [c]) == Ok(text)
  {
    var ciphertext := box.prims.encipher(box.Key(), iv, text);
    var hex := Encode(ciphertext);
    var token := Encrypt(box, iv, text) + [c];
    ExtendedToken(box, iv, text, c);
    assert Decode(hex + [c]) == ciphertext + Decode([c]) by {
      UnitsAppend(hex, [c]);
      DecodeEncodeThen(ciphertext, Units([c]));
    }
    var n := |Units(CipherField(token))|;
    assert n == |hex| + 2 by {
      EncodedUnits(ciphertext);
      UnitsAppend(hex, [c]);
      AstralUnits(c);
    }
    Parity(|ciphertext|, 2, n);
    if Decode([c]) == [] && CipherRoundTrips(box.prims) {
      assert ciphertext + Decode([c]) == ciphertext;
      assert box.prims.decipher(box.Key(), iv, ciphertext) == Some(text);
    }
  }

  /**
    U+1C031 appended to a token passes the length test and adds the byte 0x01
    to the ciphertext that is deciphered: its surrogate pair D830 DC31 reads as
    the hex digits `0` and `1`.
   */
  lemma AstralByteAdded(box: CryptoBox, iv: Block, text: string)
    ensures var ciphertext := box.prims.encipher(box.Key(), iv, text);
            && ParseToken(Encrypt(box, iv, text) + "\U{1C031}") == Ok(TokenParts(box.salt, iv, ciphertext + [0x01]))
            && Decrypt(box, Encrypt(box, iv, text) + "\U{1C031}") != Err(OddCiphertext)
  {
    AstralCharacterKept(box, iv, text, '\U{1C031}');
    LowBytesRead();
  }

  /** Three colon-free fields joined by colons split back into those fields. */
  lemma ThreeFields(a: string, b: string, c: string)
    requires Separator !in a && Separator !in b && Separator !in c
    ensures Split(a + [Separator] + b + [Separator] + c, Separator) == [a, b, c]
  {
    SplitFirst(a, Separator, b + [Separator] + c);
    SplitFirst(b, Separator, c);
    SplitWhole(c, Separator);
    assert a + [Separator] + b + [Separator] + c == a + [Separator] + (b + [Separator] + c);
  }

  /** Every token one process produces starts with the same field: the hex of the process salt. */
  lemma SaltFixedPerProcess(box: CryptoBox, iv1: Block, text1: string, iv2: Block, text2: string)
    ensures Split(Encrypt(box, iv1, text1), Separator)[0] == Split(Encrypt(box, iv2, text2), Separator)[0]
            == Encode(box.salt)
  {
  }

  /**
    The IV is the only per-call freshness: within one process, two encryptions
    of the same text give the same token exactly when they drew the same IV.
   */
  lemma IvIsOnlyFreshness(box: CryptoBox, iv1: Block, iv2: Block, text: string)
    ensures Encrypt(box, iv1, text) == Encrypt(box, iv2, text) <==> iv1 == iv2
  {
  }
}

=== FILE: hex.dfy ===
/**
  Hexadecimal text as Node's `Buffer` produces and reads it:
  `buf.toString('hex')` writes two lower-case digits per byte, and
  `Buffer.from(s, 'hex')` reads the string's UTF-16 code units in pairs,
  each unit by its low byte only (either case), and stops at the first pair
  that is not two hex digits, dropping an odd trailing unit.
 */
module Hex {
  import opened Utf16

  type Byte = b: int | 0 <= b < 256
  type Bytes = seq<Byte>

  predicate IsDigit(c: char) {
    ('0' <= c <= '9') || ('a' <= c <= 'f') || ('A' <= c <= 'F')
  }

  /** The lower-case digit for a nibble. */
  function Digit(n: int): (c: char)
    requires 0 <= n < 16
    ensures IsDigit(c) && c != ':'
  {
    if n < 10 then (48 + n) as char else (87 + n) as char
  }

  function DigitValue(c: char): (n: int)
    requires IsDigit(c)
    ensures 0 <= n < 16
  {
    if '0' <= c <= '9' then c as int - 48
    else if 'a' <= c <= 'f' then c as int - 87
    else c as int - 55
  }

  /** `buf.toString('hex')` */
  function Encode(b: Bytes): (s: string)
    ensures |s| == 2 * |b|
    ensures forall i :: 0 <= i < |s| ==> IsDigit(s[i])
    ensures ':' !in s
  {
    if |b| == 0 then ""
    else [Digit(b[0] / 16), Digit(b[0] % 16)] + Encode(b[1..])
  }

  /** A code unit Node's hex reader takes for a digit: it looks at the low byte only. */
  predicate IsDigitUnit(u: Unit) {
    var x := u % 256;
    (48 <= x <= 57) || (97 <= x <= 102) || (65 <= x <= 70)
  }

  /** The value of a digit unit, read from its low byte. */
  function UnitValue(u: Unit): (n: int)
    requires IsDigitUnit(u)
    ensures 0 <= n < 16
  {
    var x := u % 256;
    if x <= 57 then x - 48 else if x >= 97 then x - 87 else x - 55
  }

  /** The hex reader on code units: digit pairs until the first pair that is not one. */
  function DecodeUnits(u: seq<Unit>): (b: Bytes)
    ensures 2 * |b| <= |u|
    ensures 2 * |b| + 1 < |u| ==> !IsDigitUnit(u[2 * |b|]) || !IsDigitUnit(u[2 * |b| + 1])
  {
    if |u| < 2 || !IsDigitUnit(u[0]) || !IsDigitUnit(u[1]) then []
    else [UnitValue(u[0]) * 16 + UnitValue(u[1])] + DecodeUnits(u[2..])
  }

  /** `Buffer.from(s, 'hex')` */
  function Decode(s: string): (b: Bytes)
    ensures 2 * |b| <= |Units(s)|
    ensures var u := Units(s); 2 * |b| + 1 < |u| ==> !IsDigitUnit(u[2 * |b|]) || !IsDigitUnit(u[2 * |b| + 1])
  {
    DecodeUnits(Units(s))
  }

  /** Reading an encoding followed by any units gives the bytes, then what those units read as. */
  lemma {:induction false} DecodeEncodeThen(b: Bytes, t: seq<Unit>)
    ensures DecodeUnits(Units(Encode(b)) + t) == b + DecodeUnits(t)
  {
    if |b| == 0 {
      assert Units(Encode(b)) == [];
      assert Units(Encode(b)) + t == t && b + DecodeUnits(t) == DecodeUnits(t);
    } else {
      DecodeFirstByte(b, t);
      DecodeEncodeThen(b[1..], t);
      ConsThenAppend(b, DecodeUnits(t));
    }
  }

  /** The first two units of an encoding read as its first byte. */
  lemma DecodeFirstByte(b: Bytes, t: seq<Unit>)
    requires |b| > 0
    ensures DecodeUnits(Units(Encode(b)) + t) == [b[0]] + DecodeUnits(Units(Encode(b[1..])) + t)
  {
    var hi, lo := Digit(b[0] / 16), Digit(b[0] % 16);
    EncodeUnits(b);
    PairThen(hi, lo, Units(Encode(b[1..])), t);
    assert DigitValue(hi) * 16 + DigitValue(lo) == b[0];
  }

  /** Two digit units in front of any units read as one byte in front of what those read as. */
  lemma PairThen(hi: char, lo: char, rest: seq<Unit>, t: seq<Unit>)
    requires IsDigit(hi) && IsDigit(lo)
    ensures DecodeUnits([hi as int, lo as int] + rest + t) == [DigitValue(hi) * 16 + DigitValue(lo)] + DecodeUnits(rest + t)
  {
    DigitUnit(hi);
    DigitUnit(lo);
    var p: seq<Unit> := [hi as int, lo as int];
    var r := rest + t;
    var u := p + r;
    assert p + rest + t == u;
    assert u[2..] == r;
    DecodePair(u, hi, lo);
  }

  /** The units of an encoding: the two digits of the first byte, then the rest. */
  lemma EncodeUnits(b: Bytes)
    requires |b| > 0
    ensures Units(Encode(b)) == [Digit(b[0] / 16) as int, Digit(b[0] % 16) as int] + Units(Encode(b[1..]))
  {
    var hi, lo := Digit(b[0] / 16), Digit(b[0] % 16);
    assert Encode(b) == [hi, lo] + Encode(b[1..]);
    TwoUnits(hi, lo, Encode(b[1..]));
  }

  /** Two units holding hex digits read as one byte. */
  lemma DecodePair(u: seq<Unit>, hi: char, lo: char)
    requires IsDigit(hi) && IsDigit(lo)
    requires |u| >= 2 && u[0] == hi as int && u[1] == lo as int
    ensures DecodeUnits(u) == [DigitValue(hi) * 16 + DigitValue(lo)] + DecodeUnits(u[2..])
  {
    DigitUnit(hi);
    DigitUnit(lo);
  }

  /** A hex digit character is a digit unit of the same value. */
  lemma DigitUnit(c: char)
    requires IsDigit(c)
    ensures c as int < 256 && IsDigitUnit(c as int) && UnitValue(c as int) == DigitValue(c)
  {
  }

  lemma ConsThenAppend<T>(a: seq<T>, c: seq<T>)
    requires |a| > 0
    ensures [a[0]] + (a[1..] + c) == a + c
  {
    assert a == [a[0]] + a[1..];
  }

  /** An encoding is all basic-plane digits: one code unit per character. */
  lemma EncodedUnits(b: Bytes)
    ensures |Units(Encode(b))| == |Encode(b)|
  {
    var s := Encode(b);
    forall i | 0 <= i < |s|
      ensures IsBmp(s[i])
    {
      DigitUnit(s[i]);
    }
    UnitsOfBmp(s);
  }

  /** Reading back what was written gives the same bytes. */
  lemma DecodeEncode(b: Bytes)
    ensures Decode(Encode(b)) == b
  {
    DecodeEncodeThen(b, []);
    assert Units(Encode(b)) + [] == Units(Encode(b));
  }

  /** Distinct byte strings have distinct hex text. */
  lemma EncodeInjective(a: Bytes, b: Bytes)
    ensures Encode(a) == Encode(b) <==> a == b
  {
    if Encode(a) == Encode(b) {
      DecodeEncode(a);
      DecodeEncode(b);
    }
  }

  /**
    Node reads a character above U+00FF by the low bytes of its code units:
    U+0161 reads as the digit `a`, and U+1C031, stored as the units D830 DC31,
    reads as the digits `0` and `1`.
   */
  lemma LowBytesRead()
    ensures Decode("\U{161}\U{161}") == [0xaa]
    ensures Decode("\U{1C031}") == [0x01]
  {
    assert Units("\U{161}\U{161}") == [0x161, 0x161];
    assert Units("\U{1C031}") == [0xD830, 0xDC31];
  }
}

=== FILE: results.dfy ===
/** Optional values and success/failure values shared by every module of the model. */
module Results {

  /** A value that may be absent: JavaScript's `null`/`undefined` next to a present value. */
  datatype Option<+T> = None | Some(value: T)

  /** The outcome of an operation that either returns a value or throws. */
  datatype Result<+T, +E> = Ok(value: T) | Err(error: E)
}

=== FILE: route.dfy ===
/**
  The `POST /run-system-checks/:projectRef` handler of routes/checks.js: one
  audit pass (resolve the credentials, run the MFA, PITR and RLS checks in that
  order, assemble the report), and the properties of a whole pass.
 */
module Route {
  import opened Results
  import opened Helper
  import opened Seqs
  import opened Checks

  const MfaDocLink := "https://supabase.com/docs/guides/auth/auth-mfa"
  const PitrResolution := "Please go to the project dashboard and enable PITR"

  datatype MfaData = MfaData(mfaStatus: seq<MfaStatus>, resolution: Option<string>, link: Option<string>)
  datatype PitrData = PitrData(pitrStatus: bool, resolution: Option<string>, link: Option<string>)
  datatype RlsData = RlsData(rlsStatus: seq<RlsStatus>)
  datatype Report = Report(mfaData: MfaData, pitrData: PitrData, rlsData: RlsData)

  /**
    What one process brings to a pass besides the request: the loaded helper,
    the IV `encrypt` would draw, and the id the database would give a new row.
   */
  datatype Env = Env(box: CryptoBox, iv: Block, newId: nat)

  /** `req.body.accessKey ? req.body.accessKey : null` */
  function BodyKey(body: Option<string>): (k: Option<string>)
    ensures k.Some? <==> Supplied(body)
    ensures k.Some? ==> k == body
  {
    if Supplied(body) then body else None
  }

  function MfaReport(statuses: seq<MfaStatus>): MfaData {
    if |statuses| > 0 then MfaData(statuses, Some(MfaHelp), Some(MfaDocLink))
    else MfaData(statuses, None, None)
  }

  function PitrReport(enabled: bool, projectRef: string): PitrData {
    if !enabled then PitrData(enabled, Some(PitrResolution), Some(PitrLink(projectRef)))
    else PitrData(enabled, None, None)
  }

  /** `if (!accessKey) accessKey = key;`: the key the checks send. */
  function Bearer(body: Option<string>, key: string): (r: string)
    ensures BodyKey(body).Some? ==> r == BodyKey(body).value
    ensures BodyKey(body).None? ==> r == key
  {
    if Supplied(body) then body.value else key
  }

  function CommandOf(v: RlsStatus): string {
    v.command
  }

  /** The three checks of one pass, in the handler's order, and the report built from them. */
  function Audit(up: Upstream, projectRef: string, bearer: string, projectData: Option<Project>): (s: Step<Report>)
    ensures forall e :: e in s.events ==>
              || e.AppendLog?
              || (e.FetchBackups? && e.projectRef == projectRef && e.bearer == bearer)
              || (e.RunQuery? && e.projectRef == projectRef && e.bearer == bearer)
    ensures s.result.Ok? <==>
              && ListMfa(up, projectData).result.Ok?
              && PitrCheck(up, projectRef, bearer, projectData).result.Ok?
              && GetRls(up, projectRef, bearer, projectData).result.Ok?
    ensures s.result.Ok? ==>
              && up.users.Some? && up.backups.Some? && up.tables.Some?
              && var report := s.result.value;
              && (report.mfaData.resolution.Some? <==> |report.mfaData.mfaStatus| > 0)
              && (report.mfaData.link.Some? <==> |report.mfaData.mfaStatus| > 0)
              && (|report.mfaData.mfaStatus| > 0 ==>
                    report.mfaData.resolution == Some(MfaHelp) && report.mfaData.link == Some(MfaDocLink))
              && (report.pitrData.resolution.Some? <==> !report.pitrData.pitrStatus)
              && (report.pitrData.link.Some? <==> !report.pitrData.pitrStatus)
              && (!report.pitrData.pitrStatus ==>
                    report.pitrData.resolution == Some(PitrResolution) && report.pitrData.link == Some(PitrLink(projectRef)))
              && (report.pitrData.pitrStatus <==> up.backups.value.pitrEnabled == Some(true))
              && report.mfaData.mfaStatus == Map(NoMfa, Filter(up.users.value, Unprotected(up.factorCounts)))
              && report.rlsData.rlsStatus == Map(Violation, Filter(up.tables.value, NeedsRls))
              && s.events == ListMfa(up, projectData).events
                             + PitrCheck(up, projectRef, bearer, projectData).events
                             + GetRls(up, projectRef, bearer, projectData).events
  {
    var m := ListMfa(up, projectData);
    match m.result
    case Err(e) => Step(Err(e), m.events)
    case Ok(mfaStatus) =>
      var p := PitrCheck(up, projectRef, bearer, projectData);
      match p.result
      case Err(e) => Step(Err(e), m.events + p.events)
      case Ok(pitrStatus) =>
        var r := GetRls(up, projectRef, bearer, projectData);
        match r.result
        case Err(e) => Step(Err(e), m.events + p.events + r.events)
        case Ok(rlsStatus) =>
          Step(Ok(Report(MfaReport(mfaStatus), PitrReport(pitrStatus, projectRef), RlsData(rlsStatus))),
               m.events + p.events + r.events)
  }

  /**
    A failed check ends the audit: a failed MFA check leaves no trace at all,
    a failed PITR check sends no SQL and writes only the MFA row, and a failed
    RLS check writes no RLS row.
   */
  lemma AuditStopsAtFirstFailure(up: Upstream, projectRef: string, bearer: string, projectData: Option<Project>)
    ensures var a := Audit(up, projectRef, bearer, projectData);
            var m := ListMfa(up, projectData);
            var p := PitrCheck(up, projectRef, bearer, projectData);
            var r := GetRls(up, projectRef, bearer, projectData);
            && (m.result.Err? ==> a.result == Err(m.result.error) && a.events == [])
            && (m.result.Ok? && p.result.Err? ==>
                  && a.result == Err(p.result.error)
                  && a.events == m.events + [FetchBackups(projectRef, bearer)]
                  && forall e :: e in a.events ==> !e.RunQuery?)
            && (m.result.Ok? && p.result.Ok? && r.result.Err? ==>
                  && a.result == Err(r.result.error)
                  && a.events == m.events + p.events + r.events
                  && Logs(r.events) == [])
  {
  }

  /** One audit pass for `projectRef` with the request body's `accessKey`; any failure aborts the pass. */
  function RunSystemChecks(variant: Variant, env: Env, store: seq<Project>, up: Upstream,
                           projectRef: string, body: Option<string>): (s: Step<Report>)
    ensures var c := GetClient(variant, env.box, env.iv, store, up, projectRef, BodyKey(body), env.newId);
            // a client that cannot be obtained ends the pass with its error, before any check
            && (c.result.Err? ==> s.result == Err(c.result.error) && s.events == c.events)
            // the report is sent only when the client and all three checks succeed
            && (s.result.Ok? ==>
                  && c.result.Ok? && up.users.Some? && up.backups.Some? && up.tables.Some?
                  && s.result.value.mfaData.mfaStatus == Map(NoMfa, Filter(up.users.value, Unprotected(up.factorCounts)))
                  && (s.result.value.pitrData.pitrStatus <==> up.backups.value.pitrEnabled == Some(true))
                  && s.result.value.rlsData.rlsStatus == Map(Violation, Filter(up.tables.value, NeedsRls)))
            // the checks carry the body's key when one was supplied, else the key `getClient` resolved
            && (forall e :: e in s.events && (e.FetchBackups? || e.RunQuery?) ==>
                  && c.result.Ok? && e.projectRef == projectRef
                  && e.bearer == if Supplied(body) then body.value else c.result.value.key)
  {
    var accessKey := BodyKey(body);
    var c := GetClient(variant, env.box, env.iv, store, up, projectRef, accessKey, env.newId);
    match c.result
    case Err(e) => Step(Err(e), c.events)
    case Ok(session) =>
      var a := Audit(up, projectRef, Bearer(body, session.key), session.projectData);
      ChecksCarryBearer(c.events, a.events, projectRef, Bearer(body, session.key));
      Step(a.result, c.events + a.events)
  }

  /** After a client's events, every remote check of an audit names the reference and the bearer it was given. */
  lemma ChecksCarryBearer(c: seq<Event>, a: seq<Event>, projectRef: string, bearer: string)
    requires forall e :: e in c ==> e.CreateProject? || e.FetchApiKeys?
    requires forall e :: e in a ==>
               || e.AppendLog?
               || (e.FetchBackups? && e.projectRef == projectRef && e.bearer == bearer)
               || (e.RunQuery? && e.projectRef == projectRef && e.bearer == bearer)
    ensures forall e :: e in c + a && (e.FetchBackups? || e.RunQuery?) ==> e.projectRef == projectRef && e.bearer == bearer
  {
  }

  // ------------------------------------------------ properties of a pass

  lemma ClientWritesNoLog(c: seq<Event>)
    requires forall e :: e in c ==> e.CreateProject? || e.FetchApiKeys?
    ensures Logs(c) == []
  {
    forall i | 0 <= i < |c| ensures !c[i].AppendLog? {
      assert c[i] in c;
    }
    LogsNone(c);
  }

  lemma ThreeLogs(c: seq<Event>, m: seq<Event>, p: seq<Event>, r: seq<Event>)
    requires Logs(c) == []
    requires |m| == 1 && m[0].AppendLog?
    requires |p| == 2 && !p[0].AppendLog? && p[1].AppendLog?
    ensures Logs(c + (m + p + r)) == [m[0].entry, p[1].entry] + Logs(r)
  {
    assert Logs(m) == [m[0].entry];
    assert p == [p[0]] + [p[1]];
    LogsAppend([p[0]], [p[1]]);
    LogsAppend(m, p);
    LogsAppend(m + p, r);
    LogsAppend(c, m + p + r);
  }

  /** The logs of a successful audit: one per check, in order, counting the failures the report shows. */
  lemma AuditWritesThreeLogs(up: Upstream, projectRef: string, bearer: string, projectData: Option<Project>)
    requires Audit(up, projectRef, bearer, projectData).result.Ok?
    ensures var a := Audit(up, projectRef, bearer, projectData);
            var logs := Logs(a.events);
            var report := a.result.value;
            && |logs| == 3
            && logs[0].event == MfaEvent && logs[1].event == PitrEvent && logs[2].event == RlsEvent
            && logs[0].failureCount == |report.mfaData.mfaStatus|
            && logs[1].failureCount == (if report.pitrData.pitrStatus then 0 else 1)
            && logs[2].failureCount == |report.rlsData.rlsStatus|
            && logs[0].projectId == logs[1].projectId == logs[2].projectId == projectData.value.id
  {
    var a := Audit(up, projectRef, bearer, projectData);
    var m := ListMfa(up, projectData);
    var p := PitrCheck(up, projectRef, bearer, projectData);
    var r := GetRls(up, projectRef, bearer, projectData);
    assert a == Step(Ok(Report(MfaReport(m.result.value), PitrReport(p.result.value, projectRef), RlsData(r.result.value))),
                     m.events + p.events + r.events);
    OneLogPerCheck(m.events, p.events, r.events);
  }

  /** An MFA trace of one log row, a PITR trace of a fetch and a log row, and an RLS trace ending in its one log row. */
  lemma OneLogPerCheck(m: seq<Event>, p: seq<Event>, r: seq<Event>)
    requires |m| == 1 && m[0].AppendLog?
    requires |p| == 2 && !p[0].AppendLog? && p[1].AppendLog?
    requires |r| >= 1 && r[|r| - 1].AppendLog? && Logs(r) == [r[|r| - 1].entry]
    ensures Logs(m + p + r) == [m[0].entry, p[1].entry, r[|r| - 1].entry]
  {
    ThreeLogs([], m, p, r);
    assert [] + (m + p + r) == m + p + r;
  }

  /** The log rows of a successful audit all belong to the record it was given. */
  lemma AuditLogsBelongToRecord(up: Upstream, projectRef: string, bearer: string, projectData: Option<Project>)
    requires Audit(up, projectRef, bearer, projectData).result.Ok?
    ensures projectData.Some?
    ensures forall entry :: entry in Logs(Audit(up, projectRef, bearer, projectData).events) ==> entry.projectId == projectData.value.id
  {
    var logs := Logs(Audit(up, projectRef, bearer, projectData).events);
    assert projectData.Some? && |logs| == 3
           && logs[0].projectId == logs[1].projectId == logs[2].projectId == projectData.value.id by {
      AuditWritesThreeLogs(up, projectRef, bearer, projectData);
    }
    ThreeOfOneRecord(logs, projectData.value.id);
  }

  lemma ThreeOfOneRecord(logs: seq<LogEntry>, id: nat)
    requires |logs| == 3 && logs[0].projectId == logs[1].projectId == logs[2].projectId == id
    ensures forall entry :: entry in logs ==> entry.projectId == id
  {
    assert logs == [logs[0], logs[1], logs[2]];
  }

  /** Row creations and key-list requests add no log row and no SQL to what follows them. */
  lemma ClientEffectsVanish(c: seq<Event>, a: seq<Event>)
    requires forall e :: e in c ==> e.CreateProject? || e.FetchApiKeys?
    ensures Logs(c + a) == Logs(a) && Queries(c + a) == Queries(a)
  {
    ClientWritesNoLog(c);
    LogsAppend(c, a);
    NoQueries(c);
    QueriesAppend(c, a);
  }

  /** A successful pass is its successful audit, preceded by `getClient`'s effects, which hold no log row and no SQL. */
  lemma PassTrace(variant: Variant, env: Env, store: seq<Project>, up: Upstream, projectRef: string, body: Option<string>)
    ensures var s := RunSystemChecks(variant, env, store, up, projectRef, body);
            var c := GetClient(variant, env.box, env.iv, store, up, projectRef, BodyKey(body), env.newId);
            s.result.Ok? ==>
              && c.result.Ok?
              && var a := Audit(up, projectRef, Bearer(body, c.result.value.key), c.result.value.projectData);
                 && s.result == a.result
                 && Logs(s.events) == Logs(a.events)
                 && Queries(s.events) == Queries(a.events)
  {
    var s := RunSystemChecks(variant, env, store, up, projectRef, body);
    var c := GetClient(variant, env.box, env.iv, store, up, projectRef, BodyKey(body), env.newId);
    if s.result.Ok? {
      assert c.result.Ok?;
      var a := Audit(up, projectRef, Bearer(body, c.result.value.key), c.result.value.projectData);
      assert s == Step(a.result, c.events + a.events);
      ClientEffectsVanish(c.events, a.events);
    }
  }

  /**
    A successful pass appends exactly three log rows, in the order MFA, PITR,
    RLS, all for the same project, each counting the failures the report shows.
   */
  lemma PassWritesThreeLogs(variant: Variant, env: Env, store: seq<Project>, up: Upstream,
                            projectRef: string, body: Option<string>)
    ensures var s := RunSystemChecks(variant, env, store, up, projectRef, body);
            s.result.Ok? ==>
              var logs := Logs(s.events);
              var report := s.result.value;
              && |logs| == 3
              && logs[0].event == MfaEvent && logs[1].event == PitrEvent && logs[2].event == RlsEvent
              && logs[0].failureCount == |report.mfaData.mfaStatus|
              && logs[1].failureCount == (if report.pitrData.pitrStatus then 0 else 1)
              && logs[2].failureCount == |report.rlsData.rlsStatus|
              && logs[0].projectId == logs[1].projectId == logs[2].projectId
  {
    PassTrace(variant, env, store, up, projectRef, body);
    var c := GetClient(variant, env.box, env.iv, store, up, projectRef, BodyKey(body), env.newId);
    if RunSystemChecks(variant, env, store, up, projectRef, body).result.Ok? {
      AuditWritesThreeLogs(up, projectRef, Bearer(body, c.result.value.key), c.result.value.projectData);
    }
  }

  /** Every log row a successful pass writes belongs to the project record `getClient` resolved. */
  lemma PassLogsBelongToRecord(variant: Variant, env: Env, store: seq<Project>, up: Upstream,
                               projectRef: string, body: Option<string>)
    ensures var s := RunSystemChecks(variant, env, store, up, projectRef, body);
            var c := GetClient(variant, env.box, env.iv, store, up, projectRef, BodyKey(body), env.newId);
            s.result.Ok? ==>
              && c.result.Ok? && c.result.value.projectData.Some?
              && forall entry :: entry in Logs(s.events) ==> entry.projectId == c.result.value.projectData.value.id
  {
    PassTrace(variant, env, store, up, projectRef, body);
    var c := GetClient(variant, env.box, env.iv, store, up, projectRef, BodyKey(body), env.newId);
    if RunSystemChecks(variant, env, store, up, projectRef, body).result.Ok? {
      AuditLogsBelongToRecord(up, projectRef, Bearer(body, c.result.value.key), c.result.value.projectData);
    }
  }

  /** Queries of a trace made of two parts. */
  lemma QueriesAppend(a: seq<Event>, b: seq<Event>)
    ensures Queries(a + b) == Queries(a) + Queries(b)
  {
    FilterAppend(a, b, IsQuery);
    MapAppend(QueryText, Filter(a, IsQuery), Filter(b, IsQuery));
  }

  lemma NoQueries(a: seq<Event>)
    requires forall e :: e in a ==> !e.RunQuery?
    ensures Queries(a) == []
  {
    forall i | 0 <= i < |a| ensures !IsQuery(a[i]) {
      assert a[i] in a;
    }
    FilterNone(a, IsQuery);
  }

  /** The SQL a successful audit sends: the introspection query, then one remediation per violation. */
  lemma AuditQueries(up: Upstream, projectRef: string, bearer: string, projectData: Option<Project>)
    requires Audit(up, projectRef, bearer, projectData).result.Ok?
    ensures var a := Audit(up, projectRef, bearer, projectData);
            Queries(a.events) == [RlsIntrospectionQuery] + Map(CommandOf, a.result.value.rlsData.rlsStatus)
  {
    var a := Audit(up, projectRef, bearer, projectData);
    var m := ListMfa(up, projectData);
    var p := PitrCheck(up, projectRef, bearer, projectData);
    var r := GetRls(up, projectRef, bearer, projectData);
    assert a.events == m.events + p.events + r.events;
    assert a.result.value.rlsData.rlsStatus == r.result.value;
    MfaPitrSendNoSql(up, projectRef, bearer, projectData);
    assert Queries(r.events) == [RlsIntrospectionQuery] + Map(CommandOf, r.result.value) by {
      RlsQueries(up, projectRef, bearer, projectData);
    }
    QueriesAppend(m.events + p.events, r.events);
  }

  /** The MFA and PITR checks send no SQL, whatever the answers. */
  lemma MfaPitrSendNoSql(up: Upstream, projectRef: string, bearer: string, projectData: Option<Project>)
    ensures Queries(ListMfa(up, projectData).events + PitrCheck(up, projectRef, bearer, projectData).events) == []
  {
    var m := ListMfa(up, projectData);
    var p := PitrCheck(up, projectRef, bearer, projectData);
    NoQueries(m.events);
    NoQueries(p.events);
    QueriesAppend(m.events, p.events);
  }

  lemma RlsQueries(up: Upstream, projectRef: string, bearer: string, projectData: Option<Project>)
    requires GetRls(up, projectRef, bearer, projectData).result.Ok?
    ensures var r := GetRls(up, projectRef, bearer, projectData);
            Queries(r.events) == [RlsIntrospectionQuery] + Map(CommandOf, r.result.value)
  {
    var r := GetRls(up, projectRef, bearer, projectData);
    var scan := ScanTables(up.tables.value, projectRef, bearer, up.rejected);
    assert Queries(r.events) == [RlsIntrospectionQuery] + Queries(scan.events) by {
      BracketedQueries(r.events, RlsIntrospectionQuery);
    }
    assert scan.result == r.result;
    ScanQueries(scan.events, scan.result.value, projectRef, bearer);
  }

  /** A trace opened by one query and closed by a log row sends that query, then whatever lies between. */
  lemma BracketedQueries(events: seq<Event>, query: string)
    requires |events| >= 2 && events[0].RunQuery? && events[0].query == query && events[|events| - 1].AppendLog?
    ensures Queries(events) == [query] + Queries(events[1..|events| - 1])
  {
    var first := [events[0]];
    var last := [events[|events| - 1]];
    assert events == first + events[1..|events| - 1] + last;
    assert Queries(last) == [] by {
      NoQueries(last);
    }
    QueriesAppend(first, events[1..|events| - 1]);
    QueriesAppend(first + events[1..|events| - 1], last);
  }

  /** The queries of a remediation scan are the statements of the violations it found, in order. */
  lemma ScanQueries(events: seq<Event>, found: seq<RlsStatus>, projectRef: string, bearer: string)
    requires |events| == |found|
    requires forall j :: 0 <= j < |events| ==> events[j] == RunQuery(projectRef, bearer, found[j].command)
    ensures Queries(events) == Map(CommandOf, found)
  {
    FilterAll(events, IsQuery);
  }

  /**
    The SQL a successful pass sends is the introspection query followed by one
    remediation statement per reported violation, in report order, and nothing else.
   */
  lemma PassQueries(variant: Variant, env: Env, store: seq<Project>, up: Upstream,
                    projectRef: string, body: Option<string>)
    ensures var s := RunSystemChecks(variant, env, store, up, projectRef, body);
            s.result.Ok? ==>
              Queries(s.events) == [RlsIntrospectionQuery] + Map(CommandOf, s.result.value.rlsData.rlsStatus)
  {
    PassTrace(variant, env, store, up, projectRef, body);
    var c := GetClient(variant, env.box, env.iv, store, up, projectRef, BodyKey(body), env.newId);
    if RunSystemChecks(variant, env, store, up, projectRef, body).result.Ok? {
      AuditQueries(up, projectRef, Bearer(body, c.result.value.key), c.result.value.projectData);
    }
  }

  /**
    The key precedence of a pass that sends anything at all, whether or not it
    completes: the management-key exchange uses the stored key when a record
    exists (the supplied one otherwise), while the backups request and every
    SQL query use the supplied key whenever one was given.
   */
  lemma PassKeyPrecedence(variant: Variant, env: Env, store: seq<Project>, up: Upstream,
                          projectRef: string, body: Option<string>)
    ensures var s := RunSystemChecks(variant, env, store, up, projectRef, body);
            var stored := FindProject(store, projectRef);
            s.events != [] ==>
              && (stored.None? ==> Supplied(body))
              && (stored.Some? ==> Decrypt(env.box, stored.value.accessKey).Ok?)
              && var resolved := if stored.Some? then Decrypt(env.box, stored.value.accessKey).value else body.value;
                 var bearer := if Supplied(body) then body.value else resolved;
                 && FetchApiKeys(projectRef, resolved) in s.events
                 && (forall e :: e in s.events && e.FetchApiKeys? ==> e.bearer == resolved)
                 && (forall e :: e in s.events && (e.FetchBackups? || e.RunQuery?) ==> e.bearer == bearer)
  {
    var c := GetClient(variant, env.box, env.iv, store, up, projectRef, BodyKey(body), env.newId);
    ClientKey(variant, env, store, up, projectRef, body);
    if c.result.Ok? {
      var session := c.result.value;
      var bearer := Bearer(body, session.key);
      var a := Audit(up, projectRef, bearer, session.projectData);
      assert forall e :: e in c.events + a.events ==> e in c.events || e in a.events;
    }
  }

  /**
    The key `getClient` resolves when it sends anything, the one request it
    sends with it, and the key it hands on when it succeeds.
   */
  lemma ClientKey(variant: Variant, env: Env, store: seq<Project>, up: Upstream,
                  projectRef: string, body: Option<string>)
    ensures var c := GetClient(variant, env.box, env.iv, store, up, projectRef, BodyKey(body), env.newId);
            var stored := FindProject(store, projectRef);
            c.events != [] ==>
              && (stored.None? ==> Supplied(body))
              && (stored.Some? ==> Decrypt(env.box, stored.value.accessKey).Ok?)
              && var resolved := if stored.Some? then Decrypt(env.box, stored.value.accessKey).value else body.value;
                 && FetchApiKeys(projectRef, resolved) in c.events
                 && (forall e :: e in c.events && e.FetchApiKeys? ==> e.bearer == resolved)
                 && (forall e :: e in c.events ==> e.CreateProject? || e.FetchApiKeys?)
                 && (c.result.Ok? ==> c.result.value.key == resolved)
  {
    var res := Resolve(variant, env.box, env.iv, store, projectRef, BodyKey(body), env.newId);
    if res.result.Ok? {
      assert forall e :: e in res.events ==> e.CreateProject?;
    }
  }

  /**
    Whatever happens later in the pass, it creates a project row only for an
    unknown reference with a supplied key, exactly one, holding that key encrypted.
   */
  lemma PassCreatesAtMostOnce(variant: Variant, env: Env, store: seq<Project>, up: Upstream,
                              projectRef: string, body: Option<string>)
    ensures Creations(RunSystemChecks(variant, env, store, up, projectRef, body).events)
            == if FindProject(store, projectRef).None? && Supplied(body) && projectRef != ""
               then [CreateProject(projectRef, Encrypt(env.box, env.iv, body.value))]
               else []
  {
    var c := GetClient(variant, env.box, env.iv, store, up, projectRef, BodyKey(body), env.newId);
    assert Creations(c.events)
           == if FindProject(store, projectRef).None? && Supplied(body) && projectRef != ""
              then [CreateProject(projectRef, Encrypt(env.box, env.iv, body.value))]
              else [] by {
      ClientCreations(variant, env.box, env.iv, store, up, projectRef, BodyKey(body), env.newId);
    }
    if c.result.Ok? {
      var a := Audit(up, projectRef, Bearer(body, c.result.value.key), c.result.value.projectData);
      assert Creations(a.events) == [] by {
        AuditCreatesNothing(up, projectRef, Bearer(body, c.result.value.key), c.result.value.projectData);
      }
      FilterAppend(c.events, a.events, IsCreation);
    }
  }

  /** Obtaining a client writes a record exactly when a key is supplied for an unknown reference. */
  lemma ClientCreations(variant: Variant, box: CryptoBox, iv: Block, store: seq<Project>, up: Upstream,
                        projectRef: string, accessKey: Option<string>, newId: nat)
    ensures Creations(GetClient(variant, box, iv, store, up, projectRef, accessKey, newId).events)
            == if FindProject(store, projectRef).None? && Supplied(accessKey) && projectRef != ""
               then [CreateProject(projectRef, Encrypt(box, iv, accessKey.value))]
               else []
  {
    var res := Resolve(variant, box, iv, store, projectRef, accessKey, newId);
    var rest: seq<Event> := if res.result.Ok? then [FetchApiKeys(projectRef, res.result.value.key)] else [];
    FilterAll(res.events, IsCreation);
    FilterNone(rest, IsCreation);
    FilterAppend(res.events, rest, IsCreation);
  }

  lemma AuditCreatesNothing(up: Upstream, projectRef: string, bearer: string, projectData: Option<Project>)
    ensures Creations(Audit(up, projectRef, bearer, projectData).events) == []
  {
    var a := Audit(up, projectRef, bearer, projectData);
    forall i | 0 <= i < |a.events| ensures !IsCreation(a.events[i]) {
      assert a.events[i] in a.events;
    }
    FilterNone(a.events, IsCreation);
  }
}

=== FILE: seqs.dfy ===
/** Order-preserving selection over sequences, the reference the checks are stated against. */
module Seqs {

  /** The elements of `s` that satisfy `p`, in their order in `s`. */
  function Filter<T>(s: seq<T>, p: T -> bool): (r: seq<T>)
    ensures |r| <= |s|
    ensures forall i :: 0 <= i < |r| ==> p(r[i])
  {
    if |s| == 0 then []
    else (if p(s[0]) then [s[0]] else []) + Filter(s[1..], p)
  }

  function Map<A, B>(f: A -> B, s: seq<A>): (r: seq<B>)
    ensures |r| == |s|
    ensures forall i :: 0 <= i < |s| ==> r[i] == f(s[i])
  {
    if |s| == 0 then [] else [f(s[0])] + Map(f, s[1..])
  }

  /** `a` is obtained from `b` by deleting elements. */
  predicate IsSubsequence<T(==)>(a: seq<T>, b: seq<T>)
    decreases |b|
  {
    if |a| == 0 then true
    else if |b| == 0 then false
    else if a[0] == b[0] then IsSubsequence(a[1..], b[1..])
    else IsSubsequence(a, b[1..])
  }

  /** The indices of `s` whose element satisfies `p`. */
  function Positions<T>(s: seq<T>, p: T -> bool): set<int> {
    set i | 0 <= i < |s| && p(s[i])
  }

  /** The satisfying indices of `s`, counted from `k` instead of from zero. */
  function PositionsFrom<T>(s: seq<T>, p: T -> bool, k: int): set<int> {
    if |s| == 0 then {}
    else (if p(s[0]) then {k} else {}) + PositionsFrom(s[1..], p, k + 1)
  }

  lemma {:induction false} PositionsFromSize<T>(s: seq<T>, p: T -> bool, k: int)
    ensures |PositionsFrom(s, p, k)| == |Filter(s, p)|
  {
    if |s| > 0 {
      PositionsFromSize(s[1..], p, k + 1);
      PositionsFromBelow(s[1..], p, k + 1, k);
    }
  }

  lemma {:induction false} PositionsFromBelow<T>(s: seq<T>, p: T -> bool, k: int, j: int)
    requires j < k
    ensures j !in PositionsFrom(s, p, k)
  {
    if |s| > 0 {
      PositionsFromBelow(s[1..], p, k + 1, j);
    }
  }

  lemma {:induction false} PositionsFromMember<T>(s: seq<T>, p: T -> bool, k: int, i: int)
    requires k <= i < k + |s|
    ensures i in PositionsFrom(s, p, k) <==> p(s[i - k])
  {
    if i == k {
      PositionsFromBelow(s[1..], p, k + 1, i);
    } else {
      PositionsFromMember(s[1..], p, k + 1, i);
      assert s[1..][i - (k + 1)] == s[i - k];
    }
  }

  lemma {:induction false} PositionsFromRange<T>(s: seq<T>, p: T -> bool, k: int, i: int)
    requires i in PositionsFrom(s, p, k)
    ensures k <= i < k + |s|
  {
    if i != k {
      PositionsFromRange(s[1..], p, k + 1, i);
    }
  }

  /** Every element satisfying `p` is kept, and only those. */
  lemma {:induction false} FilterMembership<T>(s: seq<T>, p: T -> bool, x: T)
    ensures x in Filter(s, p) <==> x in s && p(x)
  {
    if |s| > 0 {
      FilterMembership(s[1..], p, x);
      assert s == [s[0]] + s[1..];
    }
  }

  /** Filtering keeps the order of `s`. */
  lemma {:induction false} FilterIsSubsequence<T>(s: seq<T>, p: T -> bool)
    ensures IsSubsequence(Filter(s, p), s)
  {
    if |s| > 0 {
      FilterIsSubsequence(s[1..], p);
      var r := Filter(s, p);
      if p(s[0]) {
        assert r[0] == s[0] && r[1..] == Filter(s[1..], p);
      } else {
        assert r == Filter(s[1..], p);
        SubsequenceDropHead(r, s);
      }
    }
  }

  lemma {:induction false} SubsequenceDropHead<T>(a: seq<T>, b: seq<T>)
    requires |b| > 0 && IsSubsequence(a, b[1..])
    ensures IsSubsequence(a, b)
    decreases |b|
  {
    if |a| > 0 && a[0] == b[0] {
      SubsequenceTail(a, b[1..]);
      assert b[1..][1..] == b[2..];
      SubsequenceDropHead(a[1..], b[1..]);
    }
  }

  lemma {:induction false} SubsequenceTail<T>(a: seq<T>, b: seq<T>)
    requires |a| > 0 && IsSubsequence(a, b)
    ensures IsSubsequence(a[1..], b[1..])
    decreases |b|
  {
    if a[0] != b[0] {
      SubsequenceTail(a, b[1..]);
      assert b[1..][1..] == b[2..];
      SubsequenceDropHead(a[1..], b[1..]);
    }
  }

  /** Filtering keeps one element per satisfying position, duplicates included. */
  lemma FilterCount<T>(s: seq<T>, p: T -> bool)
    ensures |Filter(s, p)| == |Positions(s, p)|
  {
    PositionsFromSize(s, p, 0);
    forall i | i in PositionsFrom(s, p, 0)
      ensures i in Positions(s, p)
    {
      PositionsFromRange(s, p, 0, i);
      PositionsFromMember(s, p, 0, i);
    }
    forall i | i in Positions(s, p)
      ensures i in PositionsFrom(s, p, 0)
    {
      PositionsFromMember(s, p, 0, i);
    }
    assert Positions(s, p) == PositionsFrom(s, p, 0);
  }

  lemma {:induction false} MapAppend<A, B>(f: A -> B, a: seq<A>, b: seq<A>)
    ensures Map(f, a + b) == Map(f, a) + Map(f, b)
  {
  }

  /** The mapped selection of a non-empty sequence, one element unfolded. */
  lemma MapFilterCons<A, B>(f: A -> B, s: seq<A>, p: A -> bool)
    requires |s| > 0
    ensures Map(f, Filter(s, p)) == (if p(s[0]) then [f(s[0])] else []) + Map(f, Filter(s[1..], p))
  {
    MapAppend(f, if p(s[0]) then [s[0]] else [], Filter(s[1..], p));
  }

  /** An element of the mapped selection is the image of some selected element, and every such image is in it. */
  lemma {:induction false} MapFilterMembership<A, B>(f: A -> B, s: seq<A>, p: A -> bool, y: B)
    ensures y in Map(f, Filter(s, p)) <==> exists x :: x in s && p(x) && f(x) == y
  {
    if |s| > 0 {
      MapFilterMembership(f, s[1..], p, y);
      var head := if p(s[0]) then [s[0]] else [];
      MapAppend(f, head, Filter(s[1..], p));
      assert s == [s[0]] + s[1..];
      if exists x :: x in s && p(x) && f(x) == y {
        var x :| x in s && p(x) && f(x) == y;
        if x != s[0] {
          assert x in s[1..];
        }
      }
    }
  }

  lemma {:induction false} FilterAppend<T>(a: seq<T>, b: seq<T>, p: T -> bool)
    ensures Filter(a + b, p) == Filter(a, p) + Filter(b, p)
  {
    if |a| > 0 {
      assert (a + b)[0] == a[0];
      assert (a + b)[1..] == a[1..] + b;
      FilterAppend(a[1..], b, p);
    } else {
      assert a + b == b;
    }
  }

  lemma {:induction false} FilterNone<T>(s: seq<T>, p: T -> bool)
    requires forall i :: 0 <= i < |s| ==> !p(s[i])
    ensures Filter(s, p) == []
  {
    if |s| > 0 {
      assert forall i :: 1 <= i < |s| ==> s[1..][i - 1] == s[i];
      FilterNone(s[1..], p);
    }
  }

  lemma {:induction false} FilterAll<T>(s: seq<T>, p: T -> bool)
    requires forall i :: 0 <= i < |s| ==> p(s[i])
    ensures Filter(s, p) == s
  {
    if |s| > 0 {
      assert forall i :: 1 <= i < |s| ==> s[1..][i - 1] == s[i];
      FilterAll(s[1..], p);
      assert s == [s[0]] + s[1..];
    }
  }
}

=== FILE: utf16.dfy ===
/**
  JavaScript strings as sequences of UTF-16 code units: `length` counts code
  units, and Node's hex reader looks at code units, not characters.
 */
module Utf16 {

  type Unit = u: int | 0 <= u < 0x1_0000

  /** A character JavaScript stores as one code unit: one of the basic plane. */
  predicate IsBmp(c: char) {
    c as int < 0x1_0000
  }

  /** The code units of one character: itself, or a high surrogate followed by a low surrogate. */
  function CharUnits(c: char): (u: seq<Unit>)
    ensures IsBmp(c) ==> u == [c as int]
    ensures !IsBmp(c) ==> |u| == 2
  {
    var n := c as int;
    if n < 0x1_0000 then [n]
    else
      var offset := n - 0x1_0000;
      [0xD800 + offset / 0x400, 0xDC00 + offset % 0x400]
  }

  /** The code units of a string, as JavaScript stores it. */
  function Units(s: string): (u: seq<Unit>)
    ensures |s| <= |u| <= 2 * |s|
  {
    if |s| == 0 then [] else CharUnits(s[0]) + Units(s[1..])
  }

  /** The units of a concatenation are the units of its parts. */
  lemma {:induction false} UnitsAppend(a: string, b: string)
    ensures Units(a + b) == Units(a) + Units(b)
  {
    if |a| > 0 {
      assert (a + b)[1..] == a[1..] + b;
      UnitsAppend(a[1..], b);
    } else {
      assert a + b == b;
    }
  }

  /** A basic-plane string has one code unit per character, the character itself. */
  lemma {:induction false} UnitsOfBmp(s: string)
    requires forall i :: 0 <= i < |s| ==> IsBmp(s[i])
    ensures |Units(s)| == |s|
    ensures forall i :: 0 <= i < |s| ==> Units(s)[i] == s[i] as int
  {
    if |s| > 0 {
      assert forall i :: 1 <= i < |s| ==> s[1..][i - 1] == s[i];
      UnitsOfBmp(s[1..]);
    }
  }

  /** Two basic-plane characters in front of a string are two units in front of its units. */
  lemma TwoUnits(a: char, b: char, s: string)
    requires IsBmp(a) && IsBmp(b)
    ensures Units([a, b] + s) == [a as int, b as int] + Units(s)
  {
    UnitsAppend([a, b], s);
    assert [a, b][1..] == [b];
  }

  /** A character outside the basic plane takes two units. */
  lemma AstralUnits(c: char)
    requires !IsBmp(c)
    ensures |Units([c])| == 2
  {
  }
}
